=== FILE: README.md ===
# URL phishing detector — a Dafny model

This project models the core of a small phishing-URL detection service.

- **Lexical feature extractor** (`extract_features`). It turns any string into fifteen numeric features: lengths, character-class counts, character counts, a dot count capped at 4, a case-insensitive "https" flag and an IP-address-prefix flag.
- **Decision policy.** It turns a model's phishing probability into a label ("phishing" iff the probability exceeds 0.5) and a confidence `|p - 0.5| * 2`.
- **Request validation** of the HTTP endpoints of the main service (`app.py`):
  - `/predict`, `/predict_batch` with its limit of 100 URLs, and `/features`;
  - the model-file priority used at start-up.
- **The minimal service** (`simple_app.py`) and its stricter URL check.
- **Training scripts**, as far as serving depends on them:
  - the saved feature names;
  - the smoke-test decisions;
  - the synthetic dataset of the lightweight model: 10 keyword-labelled base URLs, then 100 passes that append a path or a query string.

Module layout:

| module | file | models |
|---|---|---|
| `Wrappers` | `wrappers.dfy` | `Option` / `Result` |
| `PyStr` | `pystr.dfy` | The Python `str` operations the extractor uses: `count`, `in`, `split(sep[, maxsplit])`, `[-1]`, `lower`, `strip`, `isdigit` / `isalpha` / `isalnum`. |
| `Features` | `features.dfy` | `extract_features`, the feature record and its key order. |
| `FeatureProperties` | `feature_properties.dfy` | The count features and the two flags against independent reference definitions, the implications between features, and worked examples. The three length features are stated by the contracts of `Features.Extract`, `Features.PathLength` and `Features.QueryLength`. |
| `Decision` | `decision.dfy` | `predict_url` and the label and confidence policy. |
| `Json` | `json.dfy` | Request bodies as JSON values, with Python truthiness, `in` and `[]`. |
| `App` | `app.dfy` | The endpoints of `app.py`. |
| `SimpleApp` | `simple_app.dfy` | The endpoint of `simple_app.py`. |
| `Training` | `training.dfy` | `save_model.py` and `create_lightweight_model.py`. |

Modelling choices:

- **Scoring model.** The trained model is a value `Model(predict)`. `predict` maps a feature record to `Some(probability)`, or to `None` when the call raises.
- **Responses** are values: a verdict or an error kind.
- **Numbers.** Probabilities and JSON numbers are `real`.
- **Extractor copies.** The four copies of `extract_features` build the same dictionary display (`app.py:27-43`, `simple_app.py:13-29`, `save_model.py:14-30`, `create_lightweight_model.py:13-29`), so they are modelled once. Only the copy in `app.py` wraps it in a `try` that logs and returns `None`; no string input reaches that handler. `Features.ExtractFeaturesIn` evaluates the extractor in a module's global namespace: it succeeds exactly when that module binds `re`.

Where the code's behaviour may surprise, the model follows the code:

- **Empty input.** The extractor itself does not reject empty or whitespace-only input; validation happens only in the endpoints.
- **Blank URLs.** `app.py` tests `not url`, so a URL made only of blanks is accepted and scored (`App.WhitespaceUrlAccepted`). `simple_app.py` strips the URL first, so it rejects blanks (`SimpleApp.BlankUrlRejected`).
- **Dataset size.** The lightweight dataset has 10 + 100 × 10 = 1010 samples, not the 1000 its comment says (`Training.LightweightDataset`).

## Model

| member | source | states |
|---|---|---|
| `PyStr.CountCharIsMultiplicity` | app.py:35-40 | `url.count(c)` for a single character is the number of occurrences of `c` in the string, its multiset multiplicity |
| `PyStr.Find` | app.py:41 | the search behind `in` returns the first index where the needle occurs, or nothing when it occurs nowhere |
| `PyStr.Contains` | app.py:41 | `t in s` holds exactly when `t` occurs at some index of `s` |
| `PyStr.SplitN` | app.py:29 | `s.split(sep, maxsplit)` gives pieces that join back to `s`. Every piece before the last is cut at the leftmost match: no match of `sep` starts inside it, even one running into the following separator. At most `maxsplit` cuts are made; with no limit, the last piece holds no separator. |
| `PyStr.Split` | app.py:29-30 | `s.split(sep)` with no limit is a split of `s`: the pieces join back, each is cut at the leftmost match, and none holds `sep` |
| `PyStr.CutAtFirstMatchMeaning` | app.py:29 | a piece is cut at the leftmost match exactly when no match of `sep` starts inside it, even one running on into the separator that follows |
| `PyStr.CutsAtFirstMatchesMeaning` | app.py:29 | the recursive "every piece but the last is cut at the leftmost match" holds exactly when it holds for each such piece |
| `PyStr.SplitUnique` | app.py:29-30 | a list of pieces is a split of `s` (joins back, each cut at the leftmost match, last without `sep`) exactly when it equals `s.split(sep)` |
| `PyStr.LastPiece` | app.py:29-30 | `s.split(sep)[-1]` is the last piece of a split of `s` at leftmost matches: the suffix after the last of the left-to-right, non-overlapping occurrences of `sep`, or `s` itself when `sep` does not occur; it holds no `sep` |
| `PyStr.Strip` | simple_app.py:70 | `strip()` is `s` with some leading and some trailing whitespace removed; it is empty exactly when every character is whitespace, and otherwise starts and ends with a non-whitespace character |
| `Features.PathLength` | app.py:29 | Within the text after the last "//": 0 when that text holds no '/', otherwise the number of characters after its first '/'. It is below the URL length when nonzero. |
| `Features.QueryLength` | app.py:30 | 0 when the URL holds no '?', otherwise the number of characters after the last '?'; below the URL length when nonzero |
| `Features.DigitsEnd` | app.py:42 | the greedy `\d+` run from an index ends at the first non-digit after it |
| `Features.Extract` | app.py:24-46 | `url_length` is the URL length and every other feature, each of the six single-character counts included, is bounded by it; `count_dot` is at most 4; both flags are 0 or 1 |
| `Features.ExtractFeaturesIn` | simple_app.py:11-29 | the extractor succeeds exactly in a module that binds `re`, and then returns `extract_features(url)`; otherwise it fails with NameError for `re`, whatever the URL |
| `FeatureProperties.CountsAreMultiplicities` | app.py:34-40 | Each character-count feature equals that character's multiplicity in the URL. `count_dot` is the multiplicity of '.' capped at 4. |
| `FeatureProperties.DotCountCapExample` | app.py:34 | a URL with five dots reports `count_dot` 4 |
| `FeatureProperties.ClassCountsAreIndexCounts` | app.py:31-33 | `num_digits`, `num_letters` and `num_special` are the numbers of indices whose character is a digit, a letter, or not alphanumeric |
| `PyStr.CountWhereIsIndexCount` | app.py:31-33 | `sum(p(c) for c in s)` equals the number of indices of `s` whose character satisfies `p` |
| `FeatureProperties.ClassCountsPartitionLength` | app.py:31-33 | on ASCII input, digits + letters + specials equals the URL length |
| `FeatureProperties.HasHttpsIff` | app.py:41 | `has_https` is 1 exactly when "https" occurs in the URL compared case-insensitively, and 0 otherwise |
| `FeatureProperties.HasHttpsUpperCaseExample` | app.py:41 | an upper-case "HTTPS" scheme sets `has_https` |
| `FeatureProperties.MatchDigitGroupsIff` | app.py:42 | The non-backtracking scan for `\d+(\.\d+){groups-1}` agrees with the backtracking meaning of the pattern. That meaning is: some run of digits, then a dot and the rest. |
| `FeatureProperties.ScanIsMatch` | app.py:42 | every position the greedy digit-group scan accepts is a match of `\d+(\.\d+){groups-1}` in the backtracking reading |
| `FeatureProperties.MatchIsScanned` | app.py:42 | every backtracking match of `\d+(\.\d+){groups-1}` is found by the greedy scan, since a dot can only follow the maximal digit run |
| `FeatureProperties.HasIpIff` | app.py:42 | `has_ip` is 1 exactly when the URL starts with "http://" or "https://" followed by four dot-separated digit runs; nothing is required after them |
| `FeatureProperties.HasIpImpliesCounts` | app.py:34-42 | when `has_ip` is 1 the URL has at least two slashes, at least four digits and `count_dot` at least 3 |
| `FeatureProperties.HasIpExamples` | app.py:42 | "http://192.168.1.1" and the out-of-range "http://999.999.999.999" set `has_ip`; "http://example.com" does not |
| `FeatureProperties.SplitNonOverlappingExample` | app.py:29 | "a///b".split("//") is ["a", "/b"]: occurrences are taken left to right without overlap |
| `FeatureProperties.LaterCutIsNotSplit` | app.py:29 | ["a/", "b"], which cuts "a///b" at the second match of "//", is not a split |
| `FeatureProperties.PathLengthBelowUrlLength` | app.py:28-29 | a nonzero `path_length` is below `url_length` |
| `FeatureProperties.NoQuestionMarkNoQuery` | app.py:30 | with no '?' (`count_qmark` 0) the `query_length` is 0; a nonzero one is below the URL length |
| `FeatureProperties.RowFollowsKeyOrder` | app.py:27-43 | the model's input row has fifteen entries, and entry i is the dictionary's value under the i-th key |
| `Decision.Decide` | app.py:114-116 | The label is phishing iff p > 0.5 and safe iff p <= 0.5. The confidence lies in [0, 1] for p in [0, 1], and is 0 exactly at p = 0.5. The URL and probability are kept. |
| `Decision.ConfidenceSymmetric` | app.py:115-116 | the confidence of p and 1 - p agree; away from 0.5 the labels of p and 1 - p are opposite |
| `Decision.ConfidenceIsRescaledMargin` | app.py:116 | `abs(p - 0.5) * 2` equals `2 * max(p, 1 - p) - 1`, the winning class's probability rescaled to [0, 1] |
| `Decision.LabelMonotone` | app.py:115 | a higher probability never turns "phishing" into "safe" |
| `Decision.DecisionExamples` | app.py:115-116 | 0.5 is safe with confidence 0; 0.50001 is phishing; 0.9 has confidence 0.8; 0 and 1 have confidence 1 |
| `Decision.PredictUrl` | app.py:93-128 | None exactly when scoring raises. Otherwise the verdict keeps the URL and the model's probability, is phishing iff that probability exceeds 0.5, and has a confidence in [0, 1] for a model whose scores lie in [0, 1]. |
| `Json.LookupField` | app.py:163-169 | A value is found only in an object that holds the key. A falsy body, or an `in` test that fails, is "missing". Any other body raises. |
| `Json.ListBodyRaises` | app.py:163-169 | a list body containing "url" passes the `in` test and raises TypeError on `data['url']` |
| `App.DefaultFeatureNamesFollowKeyOrder` | app.py:78-83 | the fallback feature names are the extractor's keys in the extractor's order, without repeats |
| `App.ChooseModelFile` | app.py:53-71 | start-up loads the first existing file of model.txt, phishing_model.pkl, model_clean.pkl, model_lightweight.txt, model_lightweight.pkl, and fails exactly when none exists |
| `App.PredictSingle` | app.py:149-192 | The checks run in order: model not loaded, then missing field, then invalid URL (not a non-empty string). A body whose `in` test or subscript raises is "Internal server error"; a valid URL the model cannot score is "Failed to process URL". Success holds exactly when the model is loaded, the URL is a non-empty string and scoring does not raise. The verdict is phishing iff probability > 0.5. |
| `App.WhitespaceUrlAccepted` | app.py:171 | a URL of blanks passes `not url` and is scored |
| `App.PredictCheckOrder` | app.py:154-175 | a missing model is reported before looking at the body; an empty object is a missing field; a number or "" is an invalid URL |
| `App.PredictItem` | app.py:229-246 | A batch entry is "Invalid URL" exactly when the item is not a non-empty string, and "Failed to process URL" when the model raises on a valid one. A failed entry echoes the item. A scored entry is `predict_url(url)`: the verdict `Decide` gives for the model's score of the URL. |
| `App.BatchUrls` | app.py:206-259 | The body checks run in order: missing "urls", then not a list, then more than 100 items; a body whose `in` test or subscript raises is "Internal server error". Success holds exactly for a list of at most 100 items, which is returned unchanged. |
| `App.PredictBatch` | app.py:194-259 | Whole-request failures are reported as such. Otherwise entry k is the per-item result of item k, and `total_processed` equals the number of results. |
| `App.ExtractUrlFeatures` | app.py:261-300 | `/features` needs no model; it succeeds exactly for a non-empty string URL and reports exactly `extract_features` of that URL; a present but empty or non-string URL is "Invalid URL provided"; a body whose `in` test or subscript raises is "Internal server error" |
| `App.FeaturesAreWhatPredictScores` | app.py:149-192 | with a model loaded, every request `/features` rejects is rejected by `/predict` with the same error; for every other request `/predict` scores exactly the row `/features` reports, and fails only when the model raises |
| `SimpleApp.PredictIn` | simple_app.py:51-102 | The checks run in order: model, then "URL is required", then "Invalid URL format" (not a string, or blank after strip). A body lookup that raises is "Prediction failed" with that exception. With `re` unbound, every accepted URL fails with NameError; with it bound, a model that raises is "Prediction failed". Success holds exactly when `re` is bound and scoring does not raise. |
| `SimpleApp.PredictAsWritten` | simple_app.py:51-102 | the handler as written never succeeds; every accepted URL is answered "Prediction failed" with NameError for `re` |
| `SimpleApp.AsWrittenRejectsValidUrl` | simple_app.py:28 | "https://www.google.com", which the main service scores, fails here with NameError |
| `SimpleApp.Predict` | simple_app.py:51-102 | Corrected, with `re` bound: success holds exactly when the model is loaded, the URL is a string that is not blank after strip, and scoring does not raise. The verdict is phishing iff probability > 0.5. |
| `SimpleApp.AgreesWithMainService` | simple_app.py:62-92 | whenever the corrected handler answers, the main service gives the same verdict; every URL accepted here is accepted there |
| `SimpleApp.BlankUrlRejected` | simple_app.py:70 | a URL of blanks is rejected as "Invalid URL format" while the main service scores it |
| `Training.TrainingAndServingAgree` | save_model.py:12-30 | both training scripts and the main service compute the same, successful feature row for every URL |
| `Training.SavedFeatureNames` | save_model.py:80-81 | the saved column names are the main service's fallback names, one per value of the row |
| `Training.SmokeTest` | save_model.py:91-95 | the closing check labels the test URL phishing exactly when its score exceeds 0.5, and fails when scoring raises |
| `Training.SmokeTestMatchesService` | create_lightweight_model.py:106-110 | the training smoke test reports the same label the service's `predict_url` does |
| `Training.AnyOccurs` | create_lightweight_model.py:56 | `any(word in s for word in words)` holds exactly when some word occurs in `s` |
| `Training.KeywordLabelIff` | create_lightweight_model.py:53-59 | a base URL is labelled 1.0 exactly when "suspicious", "phishing", "fake" or "malicious" occurs in it lower-cased, else 0.0 |
| `Training.Vary` | create_lightweight_model.py:64-68 | a variation extends the base URL by "/path" at even positions and by "?param=value" at odd ones |
| `Training.LabelBases` | create_lightweight_model.py:53-59 | the first loop yields the base URLs in order, each with its keyword label |
| `Training.AppendPass` | create_lightweight_model.py:63-69 | one pass appends the variation of every base, in order, each with the label of the base at the same position |
| `Training.BuildDataset` | create_lightweight_model.py:50-69 | the dataset is the bases followed by `rounds` copies of the pass; the labels are the base labels followed by `rounds` copies of them |
| `Training.DatasetLength` | create_lightweight_model.py:62-69 | the dataset holds bases × (rounds + 1) samples, each with one label |
| `Training.BaseIndexIsMod` | create_lightweight_model.py:64 | the base index of position k is k mod n, as the `i` of `for i, url in enumerate(sample_urls)` is for each pass |
| `Training.DatasetSample` | create_lightweight_model.py:63-69 | sample k after the bases is the variation of base k mod 10 and carries that base's keyword label |
| `Training.LightweightDataset` | create_lightweight_model.py:36-71 | The dataset has 1010 samples. It starts with the ten bases; sample 10 is "https://www.google.com/path" and sample 11 is "https://www.github.com?param=value". Labels repeat with period 10. |
| `Training.SuspiciousSampleLabelled` | create_lightweight_model.py:40 | the base "https://suspicious-site.com" is labelled phishing |

## Left out

- **HTTP layer.** Flask routing, JSON encoding of responses, HTTP status codes, logging and printing are left out. Responses are values, and error kinds stand for the error messages.
- **Health-check endpoints.** `/` in both services only reports whether a model is loaded, so they are not modelled.
- **Request parsing.** `request.get_json()` is not modelled; the body is given as an already parsed JSON value. A malformed body that makes the parser raise is not covered.
- **Number types.** JSON numbers are `real`, with no int/float distinction; truthiness is the same either way.
- **Floats.** Floating point is modelled as exact `real` arithmetic, including `float(probability)`; rounding is not modelled.
- **Scoring models.** The LightGBM and scikit-learn models, the `predict` / `predict_proba` dispatch, `pd.DataFrame` construction and the training itself are left out. They are replaced by an abstract `Model` whose prediction may raise.
- **Model loading.**
  - `App.ChooseModelFile` models only which file is chosen; reading the file is I/O, and a load that raises is not modelled.
  - Loading `feature_names.joblib` is left out; `predict_url` never reads the names.
  - `simple_app.py`'s `load_model` reads one fixed file, so it adds nothing to choose.
- **Unicode.** Character classes (`isdigit`, `isalpha`, `isalnum`, `lower`, `\d`) are ASCII-only, while Python's are Unicode-aware. The whitespace set of `strip()` is Python's full one.
- FeatureProperties.ClassCountsPartitionLength: requires ASCII input, because Python's `isalnum` also accepts numeric characters such as '½' or 'Ⅻ' that are neither `isdigit` nor `isalpha`; such a character falls into none of the three counts, so the sum can be below the length.
- Features.Extract: its ensures state only bounds (and `url_length` exactly). The exact value of every other feature is stated elsewhere, to keep large proofs out of one contract: `path_length` and `query_length` by the contracts of `Features.PathLength` and `Features.QueryLength`; the class counts by `FeatureProperties.ClassCountsAreIndexCounts`; the single-character counts by `FeatureProperties.CountsAreMultiplicities`; the flags by `FeatureProperties.HasHttpsIff` and `FeatureProperties.HasIpIff`.
- **Unreachable exception branch.** The `except` branch of `extract_features` in `app.py` (returning None) cannot be reached for string input, and the endpoints pass only strings.
- **Training scripts.** CSV loading, `train_test_split`, `lgb.train`, model saving and printing are left out. `deploy.py` and `test_deployed_api.py` are outside the core.

## Findings

| source | as written | input that shows it | evidently intended | confidence | as-written member | corrected member |
|---|---|---|---|---|---|---|
| simple_app.py:28 | `extract_features` calls `re.match`, but the module never imports `re`. The NameError is caught by the handler, so every accepted URL is answered "Prediction failed: name 're' is not defined". | a loaded model and the body {"url": "https://www.google.com"} | `import re`, then the request is scored as in `app.py` | high (not executed) | `SimpleApp.PredictAsWritten` | `SimpleApp.Predict` |

=== FILE: app.dfy ===
/**
 * The request handlers of the main service: model-file selection at start-up,
 * `/predict`, `/predict_batch` and `/features`.  Responses are modelled as
 * values (a verdict or an error kind); routing, JSON encoding, HTTP status
 * codes and logging are left to the transport.
 */
module App {
  import opened Wrappers
  import opened PyStr
  import opened Features
  import opened Decision
  import opened Json

  /** The feature-name list used when no saved list is found. */
  const DefaultFeatureNames: seq<string> := [
    "url_length", "path_length", "query_length", "num_digits", "num_letters",
    "num_special", "count_dot", "count_dash", "count_slash", "count_at",
    "count_qmark", "count_percent", "count_equal", "has_https", "has_ip"
  ]

  /** The fallback names are the extractor's keys, in the extractor's order. */
  lemma DefaultFeatureNamesFollowKeyOrder()
    ensures DefaultFeatureNames == KeyOrder
    ensures forall i, j :: 0 <= i < j < |DefaultFeatureNames| ==> DefaultFeatureNames[i] != DefaultFeatureNames[j]
  {
  }

  /** The global names this module binds: its imports (including `re`). */
  const Globals: set<string> := {"os", "re", "pd", "lgb", "joblib", "Flask", "request", "jsonify", "logging"}

  /** The model files `load_model` tries, most preferred first. */
  const ModelFiles: seq<string> := [
    "model.txt", "phishing_model.pkl", "model_clean.pkl",
    "model_lightweight.txt", "model_lightweight.pkl"
  ]

  /** The first of `candidates` that is present, if any. */
  function FirstPresent(candidates: seq<string>, present: set<string>): (r: Option<nat>)
    ensures r.Some? ==> r.value < |candidates| && candidates[r.value] in present
    ensures r.Some? ==> forall j :: 0 <= j < r.value ==> candidates[j] !in present
    ensures r.None? ==> forall j :: 0 <= j < |candidates| ==> candidates[j] !in present
  {
    if candidates == [] then None
    else if candidates[0] in present then Some(0)
    else match FirstPresent(candidates[1..], present)
      case None => None
      case Some(k) => Some(k + 1)
  }

  /**
   * The file `load_model` loads, given the set of files that exist; `None`
   * is the "No model file found!" failure.
   */
  function ChooseModelFile(present: set<string>): (r: Option<string>)
    ensures r.None? <==> forall j :: 0 <= j < |ModelFiles| ==> ModelFiles[j] !in present
    ensures r.Some? ==> r.value in present
    ensures r.Some? ==> exists k :: (0 <= k < |ModelFiles| && ModelFiles[k] == r.value
      && forall j :: 0 <= j < k ==> ModelFiles[j] !in present)
  {
    match FirstPresent(ModelFiles, present)
    case None => None
    case Some(k) => Some(ModelFiles[k])
  }

  /** Why a request (or one batch item) failed. */
  datatype ErrorKind =
    | ModelNotLoaded   // "Model not loaded"
    | MissingField     // "Missing 'url' field in request" / "Missing 'urls' field in request"
    | InvalidUrl       // "Invalid URL provided" / "Invalid URL"
    | NotAList         // "'urls' must be a list"
    | TooManyUrls      // "Maximum 100 URLs allowed per request"
    | FailedToProcess  // "Failed to process URL" / "Failed to extract features"
    | InternalError    // "Internal server error": an exception caught by the handler

  /** `not url or not isinstance(url, str)`, negated: the URL check of this module. */
  predicate AcceptsUrl(u: Json) {
    Truthy(u) && u.JStr?
  }

  /** `/predict`. */
  function PredictSingle(model: Option<Model>, data: Json): (r: Result<Verdict, ErrorKind>)
    ensures model.None? ==> r == Failure(ModelNotLoaded)
    ensures model.Some? && LookupField(data, "url").Absent? ==> r == Failure(MissingField)
    ensures model.Some? && LookupField(data, "url").Raised? ==> r == Failure(InternalError)
    ensures (model.Some? && data.JObj? && "url" in data.fields
      && !(data.fields["url"].JStr? && data.fields["url"].s != [])) ==> r == Failure(InvalidUrl)
    ensures (model.Some? && data.JObj? && "url" in data.fields
      && data.fields["url"].JStr? && data.fields["url"].s != []
      && model.value.predict(Extract(data.fields["url"].s)).None?) ==> r == Failure(FailedToProcess)
    ensures r.Success? <==>
      && model.Some? && data.JObj? && "url" in data.fields
      && data.fields["url"].JStr? && data.fields["url"].s != []
      && model.value.predict(Extract(data.fields["url"].s)).Some?
    ensures r.Success? ==> (r.value.url == data.fields["url"].s
      && r.value.probability == model.value.predict(Extract(r.value.url)).value
      && (r.value.prediction == Phishing <==> r.value.probability > 0.5))
  {
    if model.None? then Failure(ModelNotLoaded)
    else match LookupField(data, "url")
      case Absent => Failure(MissingField)
      case Raised(_) => Failure(InternalError)
      case Found(u) =>
        if !AcceptsUrl(u) then Failure(InvalidUrl)
        else match PredictUrl(model.value, u.s)
          case None => Failure(FailedToProcess)
          case Some(v) => Success(v)
  }

  /** Whitespace is truthy, so `/predict` scores a URL made of blanks. */
  lemma WhitespaceUrlAccepted(m: Model)
    requires m.predict(Extract("   ")).Some?
    ensures PredictSingle(Some(m), JObj(map["url" := JStr("   ")])).Success?
  {
  }

  /** The model check comes before any look at the body, and the field check before the URL check. */
  lemma PredictCheckOrder(model: Option<Model>, data: Json)
    ensures model.None? ==> PredictSingle(model, data) == Failure(ModelNotLoaded)
    ensures model.Some? && data == JObj(map[]) ==> PredictSingle(model, data) == Failure(MissingField)
    ensures model.Some? && data == JObj(map["url" := JNum(5.0)]) ==> PredictSingle(model, data) == Failure(InvalidUrl)
    ensures model.Some? && data == JObj(map["url" := JStr("")]) ==> PredictSingle(model, data) == Failure(InvalidUrl)
  {
  }

  /** One entry of `/predict_batch`'s "results". */
  datatype ItemResult = Scored(verdict: Verdict) | ItemFailed(url: Json, error: ErrorKind)

  /** The success body of `/predict_batch`. */
  datatype BatchReply = BatchReply(results: seq<ItemResult>, totalProcessed: nat)

  const MaxBatchSize: nat := 100

  /** The loop body of `/predict_batch` for one item. */
  function PredictItem(m: Model, item: Json): (r: ItemResult)
    ensures r.ItemFailed? ==> r.url == item
    ensures r.ItemFailed? && r.error == InvalidUrl <==> !(item.JStr? && item.s != [])
    ensures r.Scored? <==> item.JStr? && item.s != [] && m.predict(Extract(item.s)).Some?
    ensures r.Scored? ==> (r.verdict.url == item.s
      && (r.verdict.prediction == Phishing <==> r.verdict.probability > 0.5))
    ensures r.Scored? ==> (Some(r.verdict) == PredictUrl(m, item.s)
      && r.verdict == Decide(item.s, m.predict(Extract(item.s)).value))
    ensures item.JStr? && item.s != [] && m.predict(Extract(item.s)).None? ==>
      r == ItemFailed(item, FailedToProcess)
  {
    if !AcceptsUrl(item) then ItemFailed(item, InvalidUrl)
    else match PredictUrl(m, item.s)
      case None => ItemFailed(item, FailedToProcess)
      case Some(v) => Scored(v)
  }

  /** `/predict_batch`'s checks on the body before the loop: the list of URLs, or why not. */
  function BatchUrls(data: Json): (r: Result<seq<Json>, ErrorKind>)
    ensures LookupField(data, "urls").Absent? ==> r == Failure(MissingField)
    ensures LookupField(data, "urls").Raised? ==> r == Failure(InternalError)
    ensures (data.JObj? && "urls" in data.fields && !data.fields["urls"].JList?) ==>
      r == Failure(NotAList)
    ensures (data.JObj? && "urls" in data.fields && data.fields["urls"].JList?
      && |data.fields["urls"].items| > MaxBatchSize) ==> r == Failure(TooManyUrls)
    ensures r.Success? <==>
      && data.JObj? && "urls" in data.fields
      && data.fields["urls"].JList? && |data.fields["urls"].items| <= MaxBatchSize
    ensures r.Success? ==> r.value == data.fields["urls"].items && |r.value| <= MaxBatchSize
  {
    match LookupField(data, "urls")
    case Absent => Failure(MissingField)
    case Raised(_) => Failure(InternalError)
    case Found(urls) =>
      if !urls.JList? then Failure(NotAList)
      else if |urls.items| > MaxBatchSize then Failure(TooManyUrls)
      else Success(urls.items)
  }

  /** Every item has its own entry, in order, whatever happened to the others. */
  predicate EachItemScored(m: Model, items: seq<Json>, results: seq<ItemResult>) {
    |results| == |items| && forall k :: 0 <= k < |items| ==> results[k] == PredictItem(m, items[k])
  }

  /** `/predict_batch`. */
  method PredictBatch(model: Option<Model>, data: Json) returns (r: Result<BatchReply, ErrorKind>)
    ensures model.None? ==> r == Failure(ModelNotLoaded)
    ensures model.Some? ==> (r.Success? <==> BatchUrls(data).Success?)
    ensures model.Some? && BatchUrls(data).Failure? ==> r == Failure(BatchUrls(data).error)
    ensures r.Success? ==> (model.Some? && BatchUrls(data).Success?
      && EachItemScored(model.value, BatchUrls(data).value, r.value.results)
      && r.value.totalProcessed == |r.value.results|)
  {
    if model.None? {
      return Failure(ModelNotLoaded);
    }
    var m := model.value;
    var checked := BatchUrls(data);
    if checked.Failure? {
      return Failure(checked.error);
    }
    var urls := checked.value;
    var results: seq<ItemResult> := [];
    for i := 0 to |urls|
      invariant |results| == i
      invariant forall k :: 0 <= k < i ==> results[k] == PredictItem(m, urls[k])
    {
      results := results + [PredictItem(m, urls[i])];
    }
    return Success(BatchReply(results, |results|));
  }

  /** `/features`: no model needed; the same URL check as `/predict`. */
  function ExtractUrlFeatures(data: Json): (r: Result<FeatureVector, ErrorKind>)
    ensures LookupField(data, "url").Absent? ==> r == Failure(MissingField)
    ensures LookupField(data, "url").Raised? ==> r == Failure(InternalError)
    ensures (data.JObj? && "url" in data.fields
      && !(data.fields["url"].JStr? && data.fields["url"].s != [])) ==> r == Failure(InvalidUrl)
    ensures r.Success? <==> (data.JObj? && "url" in data.fields
      && data.fields["url"].JStr? && data.fields["url"].s != [])
    ensures r.Success? ==> r.value == Extract(data.fields["url"].s)
  {
    match LookupField(data, "url")
    case Absent => Failure(MissingField)
    case Raised(_) => Failure(InternalError)
    case Found(u) =>
      if !AcceptsUrl(u) then Failure(InvalidUrl)
      else match ExtractFeaturesIn(Globals, u.s)
        case Failure(_) => Failure(FailedToProcess)
        case Success(v) => Success(v)
  }

  /**
   * With a model loaded, `/predict` turns away every request `/features`
   * turns away, with the same error; on the others it scores exactly the row
   * `/features` reports.
   */
  lemma FeaturesAreWhatPredictScores(m: Model, data: Json)
    ensures ExtractUrlFeatures(data).Failure? ==>
      PredictSingle(Some(m), data).Failure? && PredictSingle(Some(m), data).error == ExtractUrlFeatures(data).error
    ensures ExtractUrlFeatures(data).Success? ==>
      (PredictSingle(Some(m), data).Success? <==> m.predict(ExtractUrlFeatures(data).value).Some?)
    ensures ExtractUrlFeatures(data).Success? && PredictSingle(Some(m), data).Success? ==>
      PredictSingle(Some(m), data).value
        == Decide(data.fields["url"].s, m.predict(ExtractUrlFeatures(data).value).value)
  {
  }
}

=== FILE: decision.dfy ===
/**
 * The classifier side of the pipeline: an opaque scoring model and the
 * decision policy that turns its phishing probability into a label and a
 * confidence.
 */
module Decision {
  import opened Wrappers
  import opened Features

  /** The two labels the service reports, "phishing" and "safe". */
  datatype Label = Phishing | Safe

  /**
   * A loaded model, reduced to its prediction on one feature row.  `None`
   * stands for a prediction call that raised; the training algorithm, the
   * file format and the `predict`/`predict_proba` dispatch are not modelled.
   */
  datatype Model = Model(predict: FeatureVector -> Option<real>)

  /** The model's probabilities all lie in [0, 1]. */
  ghost predicate ScoresInUnitInterval(m: Model) {
    forall v :: m.predict(v).Some? ==> 0.0 <= m.predict(v).value <= 1.0
  }

  /** The response fields "url", "prediction", "probability", "confidence". */
  datatype Verdict = Verdict(url: string, prediction: Label, probability: real, confidence: real)

  function Abs(x: real): real {
    if x < 0.0 then -x else x
  }

  function Max(a: real, b: real): real {
    if a < b then b else a
  }

  /** `"phishing" if probability > 0.5 else "safe"`. */
  function LabelOf(p: real): Label {
    if p > 0.5 then Phishing else Safe
  }

  /** `abs(probability - 0.5) * 2`: distance from the boundary, scaled to [0, 1]. */
  function Confidence(p: real): real {
    Abs(p - 0.5) * 2.0
  }

  /** The verdict for `url` scored `p`. */
  function Decide(url: string, p: real): (v: Verdict)
    ensures v.url == url && v.probability == p
    ensures v.prediction == Phishing <==> p > 0.5
    ensures v.prediction == Safe <==> p <= 0.5
    ensures 0.0 <= p <= 1.0 ==> 0.0 <= v.confidence <= 1.0
    ensures v.confidence == 0.0 <==> p == 0.5
  {
    Verdict(url, LabelOf(p), p, Confidence(p))
  }

  /**
   * The confidence is symmetric about 0.5, and the label flips with the
   * probability except at the boundary, where 0.5 and 1 - 0.5 are both safe.
   */
  lemma ConfidenceSymmetric(p: real)
    ensures Confidence(p) == Confidence(1.0 - p)
    ensures p != 0.5 ==> (LabelOf(p) == Phishing <==> LabelOf(1.0 - p) == Safe)
  {
  }

  /**
   * The canonical confidence is the agreement margin `max(p, 1 - p)`
   * rescaled from [0.5, 1] to [0, 1]; the two formulas differ but order
   * probabilities the same way.
   */
  lemma ConfidenceIsRescaledMargin(p: real)
    ensures Confidence(p) == 2.0 * Max(p, 1.0 - p) - 1.0
  {
  }

  /** A higher probability never turns a phishing verdict into a safe one. */
  lemma LabelMonotone(p: real, q: real)
    requires p <= q
    ensures LabelOf(p) == Phishing ==> LabelOf(q) == Phishing
    ensures LabelOf(q) == Safe ==> LabelOf(p) == Safe
  {
  }

  /** The boundary cases: a tie is safe, just above it is phishing, 0.9 is 0.8 confident. */
  lemma DecisionExamples(url: string)
    ensures Decide(url, 0.5).prediction == Safe && Decide(url, 0.5).confidence == 0.0
    ensures Decide(url, 0.50001).prediction == Phishing
    ensures Decide(url, 0.9).confidence == 0.8
    ensures Decide(url, 0.0).confidence == 1.0 && Decide(url, 1.0).confidence == 1.0
  {
  }

  /**
   * `predict_url`: extract the features, score them, decide.  A prediction
   * that raises makes the whole call return `None`.
   */
  function PredictUrl(m: Model, url: string): (r: Option<Verdict>)
    ensures r.None? <==> m.predict(Extract(url)).None?
    ensures r.Some? ==> r.value.url == url && r.value.probability == m.predict(Extract(url)).value
    ensures r.Some? ==> (r.value.prediction == Phishing <==> r.value.probability > 0.5)
    ensures r.Some? && ScoresInUnitInterval(m) ==> 0.0 <= r.value.confidence <= 1.0
  {
    match m.predict(Extract(url))
    case None => None
    case Some(p) => Some(Decide(url, p))
  }
}

=== FILE: feature_properties.dfy ===
/**
 * What `extract_features` promises: the count features and the two flags
 * against independent reference definitions (multiplicities, index sets,
 * case-folded occurrence, a backtracking reading of the pattern), the
 * implications between features, and worked examples.  The three length
 * features are stated by the contracts in `Features`.
 */
module FeatureProperties {
  import opened Wrappers
  import opened PyStr
  import opened Features

  // ---------------------------------------------------------------------
  // Character counts

  /**
   * Every `url.count(c)` feature is the multiplicity of that character in the
   * URL; `count_dot` is that multiplicity capped at 4.
   */
  lemma CountsAreMultiplicities(url: string)
    ensures var v := Extract(url); var dots := multiset(url)['.'];
      && v.countDot == (if dots < 4 then dots else 4)
      && v.countDash == multiset(url)['-']
      && v.countSlash == multiset(url)['/']
      && v.countAt == multiset(url)['@']
      && v.countQmark == multiset(url)['?']
      && v.countPercent == multiset(url)['%']
      && v.countEqual == multiset(url)['=']
  {
    CountCharIsMultiplicity(url, '.');
    CountCharIsMultiplicity(url, '-');
    CountCharIsMultiplicity(url, '/');
    CountCharIsMultiplicity(url, '@');
    CountCharIsMultiplicity(url, '?');
    CountCharIsMultiplicity(url, '%');
    CountCharIsMultiplicity(url, '=');
  }

  /** Five dots are reported as four. */
  lemma DotCountCapExample()
    ensures Extract("https://a.b.c.d.e.com").countDot == 4
  {
    DotCapCore();
  }

  lemma DotCapCore()
    ensures CountDot("https://a.b.c.d.e.com") == 4
  {
    CountCharIsMultiplicity("https://a.b.c.d.e.com", '.');
  }

  /**
   * `num_digits`, `num_letters` and `num_special` count the indices whose
   * character is a digit, a letter, or not alphanumeric.
   */
  lemma ClassCountsAreIndexCounts(url: string)
    ensures var v := Extract(url);
      && v.numDigits == |IndicesWhere(url, IsDigit)|
      && v.numLetters == |IndicesWhere(url, IsAlpha)|
      && v.numSpecial == |IndicesWhere(url, IsSpecial)|
  {
    CountWhereIsIndexCount(url, IsDigit);
    CountWhereIsIndexCount(url, IsAlpha);
    CountWhereIsIndexCount(url, IsSpecial);
  }

  /**
   * On ASCII input every character is exactly one of digit, letter or other,
   * so the three class counts add up to the length.
   */
  lemma ClassCountsPartitionLength(url: string)
    requires IsAscii(url)
    ensures var v := Extract(url); v.numDigits + v.numLetters + v.numSpecial == v.urlLength
  {
    ClassCountsPartition(url);
  }

  lemma {:induction false} ClassCountsPartition(s: string)
    ensures CountWhere(s, IsDigit) + CountWhere(s, IsAlpha) + CountWhere(s, IsSpecial) == |s|
    decreases |s|
  {
    if s != [] {
      ClassCountsPartition(s[1..]);
    }
  }

  // ---------------------------------------------------------------------
  // has_https

  /** `w` occurs in `s` at `i` when both are compared lower-cased. */
  predicate CaseFoldedAt(s: string, w: string, i: int) {
    0 <= i && i + |w| <= |s| && forall j :: 0 <= j < |w| ==> LowerChar(s[i + j]) == LowerChar(w[j])
  }

  /** `has_https` is 1 exactly when "https" occurs in the URL, ignoring case. */
  lemma HasHttpsIff(url: string)
    ensures Extract(url).hasHttps == 1 <==> exists i :: CaseFoldedAt(url, "https", i)
    ensures Extract(url).hasHttps == 0 || Extract(url).hasHttps == 1
  {
    HasHttpsCore(url);
  }

  lemma HasHttpsCore(url: string)
    ensures HasHttps(url) == 1 <==> exists i :: CaseFoldedAt(url, "https", i)
  {
    var low := Lower(url);
    forall i ensures OccursAt(low, "https", i) <==> CaseFoldedAt(url, "https", i) {
      if 0 <= i && i + 5 <= |url| {
        if OccursAt(low, "https", i) {
          forall j | 0 <= j < 5 ensures LowerChar(url[i + j]) == LowerChar("https"[j]) {
            assert low[i..i + 5][j] == low[i + j];
          }
        }
        if CaseFoldedAt(url, "https", i) {
          assert low[i..i + 5] == "https";
        }
      }
    }
  }

  /** An upper-case scheme still counts. */
  lemma HasHttpsUpperCaseExample()
    ensures Extract("HTTPS://x.com").hasHttps == 1
  {
    var url := "HTTPS://x.com";
    HasHttpsCore(url);
    assert CaseFoldedAt(url, "https", 0);
  }

  // ---------------------------------------------------------------------
  // has_ip

  /** The scanner agrees with the backtracking meaning of the pattern. */
  lemma MatchDigitGroupsIff(s: string, i: nat, groups: nat)
    requires i <= |s| && groups >= 1
    ensures MatchDigitGroups(s, i, groups) <==> DigitGroups(s, i, groups)
  {
    if MatchDigitGroups(s, i, groups) {
      ScanIsMatch(s, i, groups);
    }
    if DigitGroups(s, i, groups) {
      MatchIsScanned(s, i, groups);
    }
  }

  /** What the greedy scan accepts, the backtracking reading accepts. */
  lemma {:induction false} ScanIsMatch(s: string, i: nat, groups: nat)
    requires i <= |s| && groups >= 1 && MatchDigitGroups(s, i, groups)
    ensures DigitGroups(s, i, groups)
    decreases groups
  {
    var e := DigitsEnd(s, i);
    if groups > 1 {
      ScanIsMatch(s, e + 1, groups - 1);
    }
    assert DigitsBetween(s, i, e);
  }

  /** Any digit run a dot can follow is the greedy one, so the scan finds every match. */
  lemma {:induction false} MatchIsScanned(s: string, i: nat, groups: nat)
    requires i <= |s| && groups >= 1 && DigitGroups(s, i, groups)
    ensures MatchDigitGroups(s, i, groups)
    decreases groups
  {
    var e := DigitsEnd(s, i);
    var e' :| i < e' <= |s| && DigitsBetween(s, i, e')
      && (groups == 1 || (e' < |s| && s[e'] == '.' && DigitGroups(s, e' + 1, groups - 1)));
    assert e' <= e;
    if groups > 1 {
      assert e == e';
      MatchIsScanned(s, e + 1, groups - 1);
    }
  }

  /**
   * `has_ip` is 1 exactly when the URL starts with "http://" or "https://"
   * followed by four dot-separated digit runs; nothing is required after
   * them and the runs are not range-checked.
   */
  lemma HasIpIff(url: string)
    ensures Extract(url).hasIp == 1 <==> IpPrefix(url)
    ensures Extract(url).hasIp == 0 || Extract(url).hasIp == 1
  {
    HasIpCore(url);
  }

  lemma HasIpCore(url: string)
    ensures IpPrefixMatch(url) <==> IpPrefix(url)
  {
    if |url| >= 7 {
      MatchDigitGroupsIff(url, 7, 4);
    }
    if |url| >= 8 {
      MatchDigitGroupsIff(url, 8, 4);
    }
  }

  /** A match from `i` forces at least `groups` digits and `groups - 1` dots after `i`. */
  lemma {:induction false} MatchDigitGroupsCounts(s: string, i: nat, groups: nat)
    requires i <= |s| && groups >= 1 && MatchDigitGroups(s, i, groups)
    ensures CountWhere(s[i..], IsDigit) >= groups
    ensures CountChar(s[i..], '.') >= groups - 1
    decreases groups
  {
    var e := DigitsEnd(s, i);
    CountWherePositive(s[i..], IsDigit, 0);
    if groups > 1 {
      var head := s[i..e + 1];
      var rest := s[e + 1..];
      MatchDigitGroupsCounts(s, e + 1, groups - 1);
      assert s[i..] == head + rest;
      CountWhereAppend(head, rest, IsDigit);
      CountWhereAppend(head, rest, EqualsChar('.'));
      CountWherePositive(head, IsDigit, 0);
      CountWherePositive(head, EqualsChar('.'), e - i);
    }
  }

  /**
   * When `has_ip` is 1 the URL holds the two slashes of "//", at least four
   * digits and at least three dots, so `count_dot` is at least 3.
   */
  lemma HasIpImpliesCounts(url: string)
    ensures Extract(url).hasIp == 1 ==>
      Extract(url).countSlash >= 2 && Extract(url).numDigits >= 4 && Extract(url).countDot >= 3
  {
    if IpPrefixMatch(url) {
      HasIpCountsCore(url);
    }
  }

  lemma HasIpCountsCore(url: string)
    requires IpPrefixMatch(url)
    ensures CountChar(url, '/') >= 2
    ensures CountWhere(url, IsDigit) >= 4
    ensures CountChar(url, '.') >= 3
  {
    var k := if |url| >= 7 && url[..7] == "http://" && MatchDigitGroups(url, 7, 4) then 7 else 8;
    assert url[k - 2] == '/' && url[k - 1] == '/' by {
      assert url[..k][k - 2] == url[k - 2];
      assert url[..k][k - 1] == url[k - 1];
    }
    CountWhereTwo(url, EqualsChar('/'), k - 2, k - 1);
    MatchDigitGroupsCounts(url, k, 4);
    assert url == url[..k] + url[k..];
    CountWhereAppend(url[..k], url[k..], IsDigit);
    CountWhereAppend(url[..k], url[k..], EqualsChar('.'));
  }

  lemma HasIpExamples()
    ensures Extract("http://192.168.1.1").hasIp == 1
    ensures Extract("http://999.999.999.999").hasIp == 1
    ensures Extract("http://example.com").hasIp == 0
  {
    HasIpExamplesCore();
  }

  lemma HasIpExamplesCore()
    ensures IpPrefixMatch("http://192.168.1.1")
    ensures IpPrefixMatch("http://999.999.999.999")
    ensures !IpPrefixMatch("http://example.com")
  {
    PrivateAddressMatches();
    OutOfRangeAddressMatches();
    HostNameDoesNotMatch();
  }

  lemma PrivateAddressMatches()
    ensures IpPrefixMatch("http://192.168.1.1")
  {
    var a := "http://192.168.1.1";
    assert a[..7] == "http://";
    DigitsEndAt(a, 7, 10);
    DigitsEndAt(a, 11, 14);
    DigitsEndAt(a, 15, 16);
    DigitsEndAt(a, 17, 18);
  }

  lemma OutOfRangeAddressMatches()
    ensures IpPrefixMatch("http://999.999.999.999")
  {
    var b := "http://999.999.999.999";
    assert b[..7] == "http://";
    DigitsEndAt(b, 7, 10);
    DigitsEndAt(b, 11, 14);
    DigitsEndAt(b, 15, 18);
    DigitsEndAt(b, 19, 22);
  }

  lemma HostNameDoesNotMatch()
    ensures !IpPrefixMatch("http://example.com")
  {
    var c := "http://example.com";
    assert c[..7] == "http://";
    DigitsEndAt(c, 7, 7);
    assert c[..8] != "https://" by {
      assert c[4] == ':';
    }
  }

  /** The digit run from `i` ends at `e` when `e` closes a run of digits. */
  lemma DigitsEndAt(s: string, i: nat, e: nat)
    requires i <= e <= |s| && DigitsBetween(s, i, e)
    requires e < |s| ==> !IsDigit(s[e])
    ensures DigitsEnd(s, i) == e
  {
  }

  // ---------------------------------------------------------------------
  // path_length and query_length

  /** Python's non-overlapping split: "a///b".split("//") is ["a", "/b"]. */
  lemma SplitNonOverlappingExample()
    ensures Split("a///b", "//") == ["a", "/b"]
    ensures LastPiece("a///b", "//") == "/b"
  {
    var s := "a///b";
    FirstMatchOfSlashes();
    SplitUnfold(s, "//", 1);
    NoSlashesInTail();
    assert s[..1] == "a" && s[3..] == "/b";
  }

  lemma FirstMatchOfSlashes()
    ensures Find("a///b", "//") == Some(1)
  {
    var s := "a///b";
    assert s[0..2] == "a/";
    assert s[1..3] == "//";
    FindIsFirst(s, "//", 1);
  }

  lemma NoSlashesInTail()
    ensures Split("/b", "//") == ["/b"]
  {
    var rest := "/b";
    assert rest[..2] == rest && rest[1] != "//"[1];
    assert Find(rest[1..], "//").None?;
    assert Find(rest, "//").None?;
  }

  /** Cutting "a///b" at the second match of "//" instead of the first is not a split. */
  lemma LaterCutIsNotSplit()
    ensures !IsSplit("a///b", "//", ["a/", "b"])
  {
    var piece := "a/";
    assert (piece + "//")[1..3] == "//";
    assert OccursAt(piece + "//", "//", 1);
  }

  /** A nonzero `path_length` is shorter than the URL. */
  lemma PathLengthBelowUrlLength(url: string)
    ensures var v := Extract(url); v.pathLength == 0 || v.pathLength < v.urlLength
  {
  }

  /** Without any '?', `query_length` is 0. */
  lemma NoQuestionMarkNoQuery(url: string)
    ensures Extract(url).countQmark == 0 ==> Extract(url).queryLength == 0
    ensures Extract(url).queryLength == 0 || Extract(url).queryLength < Extract(url).urlLength
  {
    NoQuestionMarkCore(url);
  }

  lemma NoQuestionMarkCore(url: string)
    ensures CountChar(url, '?') == 0 ==> QueryLength(url) == 0
  {
    CountWhereZero(url, EqualsChar('?'));
  }

  // ---------------------------------------------------------------------
  // Key order

  /**
   * The model's input row lists the dictionary's values in its key order:
   * position `i` of the row is the value stored under the `i`-th key.
   */
  lemma RowFollowsKeyOrder(v: FeatureVector)
    ensures |ToSeq(v)| == |KeyOrder| == 15
    ensures forall i :: 0 <= i < |KeyOrder| ==> Column(v, KeyOrder[i]) == Some(ToSeq(v)[i])
  {
  }
}

=== FILE: features.dfy ===
/**
 * The lexical URL feature extractor `extract_features`: a total map from any
 * string to fifteen named natural numbers.  The four copies of the extractor
 * in the repository build the same dictionary display and are modelled once,
 * here; the copy in `app.py` also wraps it in a handler that returns `None`,
 * which no string input reaches.
 */
module Features {
  import opened Wrappers
  import opened PyStr

  /** The fifteen features, in the key order of the extractor's dictionary. */
  datatype FeatureVector = FeatureVector(
    urlLength: nat,
    pathLength: nat,
    queryLength: nat,
    numDigits: nat,
    numLetters: nat,
    numSpecial: nat,
    countDot: nat,
    countDash: nat,
    countSlash: nat,
    countAt: nat,
    countQmark: nat,
    countPercent: nat,
    countEqual: nat,
    hasHttps: nat,
    hasIp: nat)

  /** The dictionary keys, in insertion order: the model's column order. */
  const KeyOrder: seq<string> := [
    "url_length", "path_length", "query_length", "num_digits", "num_letters",
    "num_special", "count_dot", "count_dash", "count_slash", "count_at",
    "count_qmark", "count_percent", "count_equal", "has_https", "has_ip"
  ]

  /** The feature values in column order: one row of the model's input frame. */
  function ToSeq(v: FeatureVector): seq<nat> {
    [v.urlLength, v.pathLength, v.queryLength, v.numDigits, v.numLetters,
     v.numSpecial, v.countDot, v.countDash, v.countSlash, v.countAt,
     v.countQmark, v.countPercent, v.countEqual, v.hasHttps, v.hasIp]
  }

  /** `features[name]`: the dictionary lookup by key, `None` for an unknown key. */
  function Column(v: FeatureVector, name: string): Option<nat> {
    match name
    case "url_length" => Some(v.urlLength)
    case "path_length" => Some(v.pathLength)
    case "query_length" => Some(v.queryLength)
    case "num_digits" => Some(v.numDigits)
    case "num_letters" => Some(v.numLetters)
    case "num_special" => Some(v.numSpecial)
    case "count_dot" => Some(v.countDot)
    case "count_dash" => Some(v.countDash)
    case "count_slash" => Some(v.countSlash)
    case "count_at" => Some(v.countAt)
    case "count_qmark" => Some(v.countQmark)
    case "count_percent" => Some(v.countPercent)
    case "count_equal" => Some(v.countEqual)
    case "has_https" => Some(v.hasHttps)
    case "has_ip" => Some(v.hasIp)
    case _ => None
  }

  /** Python's `int(b)` for a boolean. */
  function BoolToInt(b: bool): nat {
    if b then 1 else 0
  }

  // ---------------------------------------------------------------------
  // Index helpers used to state the length features

  /** `i` is the index of the first `c` in `s`. */
  predicate FirstIndexOf(s: string, c: char, i: int) {
    0 <= i < |s| && s[i] == c && forall j :: 0 <= j < i ==> s[j] != c
  }

  /** `i` is the index of the last `c` in `s`. */
  predicate LastIndexOf(s: string, c: char, i: int) {
    0 <= i < |s| && s[i] == c && forall j :: i < j < |s| ==> s[j] != c
  }

  // ---------------------------------------------------------------------
  // path_length and query_length

  /**
   * `len(url.split("//")[-1].split("/", 1)[-1]) if "/" in url.split("//")[-1] else 0`:
   * within the text after the last "//", the length of what follows its first '/'.
   */
  function PathLength(url: string): (n: nat)
    ensures var rest := LastPiece(url, "//");
      && ((forall j :: 0 <= j < |rest| ==> rest[j] != '/') ==> n == 0)
      && (forall i :: FirstIndexOf(rest, '/', i) ==> n == |rest| - i - 1)
    ensures n <= |url| && (n > 0 ==> n < |url|)
  {
    var rest := LastPiece(url, "//");
    ContainsChar(rest, '/');
    if Contains(rest, "/") then
      var parts := SplitN(rest, "/", 1);
      var tail := parts[|parts| - 1];
      AfterFirstSlash(rest, parts);
      |tail|
    else 0
  }

  /** `s.split("/", 1)` on a string holding a '/' cuts it at its first '/'. */
  lemma AfterFirstSlash(s: string, parts: seq<string>)
    requires Contains(s, "/") && parts == SplitN(s, "/", 1)
    ensures |parts| == 2
    ensures forall i :: FirstIndexOf(s, '/', i) ==> |parts[1]| == |s| - i - 1
  {
    assert s == parts[0] + "/" + parts[1];
    var a := parts[0];
    ContainsChar(a, '/');
    assert FirstIndexOf(s, '/', |a|) by {
      assert s[|a|] == '/';
      forall j | 0 <= j < |a| ensures s[j] != '/' {
        assert s[j] == a[j];
      }
    }
  }

  /**
   * `len(url.split("?")[-1]) if "?" in url else 0`: the length of the text
   * after the last '?'.
   */
  function QueryLength(url: string): (n: nat)
    ensures (forall j :: 0 <= j < |url| ==> url[j] != '?') ==> n == 0
    ensures forall q :: LastIndexOf(url, '?', q) ==> n == |url| - q - 1
    ensures n <= |url| && (n > 0 ==> n < |url|)
  {
    ContainsChar(url, '?');
    if Contains(url, "?") then
      var tail := LastPiece(url, "?");
      AfterLastQuestionMark(url, tail);
      |tail|
    else 0
  }

  /** When the URL holds a '?', `url.split("?")[-1]` starts right after the last one. */
  lemma AfterLastQuestionMark(url: string, tail: string)
    requires Find(url, "?").Some? && tail == LastPiece(url, "?")
    ensures |tail| < |url| && LastIndexOf(url, '?', |url| - |tail| - 1)
  {
    var q := |url| - |tail| - 1;
    assert url[q..q + 1] == "?";
    assert url[q] == '?';
    ContainsChar(tail, '?');
    forall j | q < j < |url| ensures url[j] != '?' {
      assert url[j] == tail[j - q - 1];
    }
  }

  // ---------------------------------------------------------------------
  // has_ip: re.match(r"^https?:\/\/\d+\.\d+\.\d+\.\d+", url)

  /** End of the maximal run of digits in `s` that starts at index `i`. */
  function DigitsEnd(s: string, i: nat): (e: nat)
    requires i <= |s|
    ensures i <= e <= |s|
    ensures forall j :: i <= j < e ==> IsDigit(s[j])
    ensures e < |s| ==> !IsDigit(s[e])
    decreases |s| - i
  {
    if i < |s| && IsDigit(s[i]) then DigitsEnd(s, i + 1) else i
  }

  /**
   * `\d+(\.\d+){groups-1}` matched at index `i` of `s`, with no end anchor.
   * As '.' is not a digit, the greedy digit run is the only one a dot can
   * follow, so the scan never backtracks.
   */
  predicate MatchDigitGroups(s: string, i: nat, groups: nat)
    requires i <= |s| && groups >= 1
    decreases groups
  {
    var e := DigitsEnd(s, i);
    e > i && (groups == 1 || (e < |s| && s[e] == '.' && MatchDigitGroups(s, e + 1, groups - 1)))
  }

  /** The whole pattern `^https?://` + four digit groups, with `s?` tried both ways. */
  predicate IpPrefixMatch(url: string) {
    || (|url| >= 7 && url[..7] == "http://" && MatchDigitGroups(url, 7, 4))
    || (|url| >= 8 && url[..8] == "https://" && MatchDigitGroups(url, 8, 4))
  }

  /** All characters of `s` from `i` up to `e` are digits. */
  predicate DigitsBetween(s: string, i: int, e: int)
    requires 0 <= i <= e <= |s|
  {
    forall j :: i <= j < e ==> IsDigit(s[j])
  }

  /**
   * Reference meaning of `\d+(\.\d+){groups-1}` at index `i`, as a
   * backtracking matcher reads it: some non-empty run of digits, then, while
   * groups remain, a dot and the rest of the pattern.
   */
  ghost predicate DigitGroups(s: string, i: nat, groups: nat)
    requires i <= |s| && groups >= 1
    decreases groups
  {
    exists e :: i < e <= |s| && DigitsBetween(s, i, e)
      && (groups == 1 || (e < |s| && s[e] == '.' && DigitGroups(s, e + 1, groups - 1)))
  }

  /** Reference meaning of the has_ip pattern. */
  ghost predicate IpPrefix(url: string) {
    || (|url| >= 7 && url[..7] == "http://" && DigitGroups(url, 7, 4))
    || (|url| >= 8 && url[..8] == "https://" && DigitGroups(url, 8, 4))
  }

  // ---------------------------------------------------------------------
  // The features that are more than a plain count

  /** `min(url.count('.'), 4)`. */
  function CountDot(url: string): nat {
    var n := CountChar(url, '.');
    if n < 4 then n else 4
  }

  /** `int("https" in url.lower())`. */
  function HasHttps(url: string): nat {
    BoolToInt(Contains(Lower(url), "https"))
  }

  /** `int(re.match(r"^https?:\/\/\d+\.\d+\.\d+\.\d+", url) is not None)`. */
  function HasIp(url: string): nat {
    BoolToInt(IpPrefixMatch(url))
  }

  // ---------------------------------------------------------------------
  // The extractor

  /** `extract_features(url)`. */
  function Extract(url: string): (v: FeatureVector)
    ensures v.urlLength == |url|
    ensures v.pathLength <= |url| && v.queryLength <= |url|
    ensures v.numDigits <= |url| && v.numLetters <= |url| && v.numSpecial <= |url|
    ensures v.countDot <= 4 && v.countDot <= |url|
    ensures v.countDash <= |url| && v.countSlash <= |url| && v.countAt <= |url|
    ensures v.countQmark <= |url| && v.countPercent <= |url| && v.countEqual <= |url|
    ensures v.hasHttps <= 1 && v.hasIp <= 1
  {
    FeatureVector(
      urlLength := |url|,
      pathLength := PathLength(url),
      queryLength := QueryLength(url),
      numDigits := CountWhere(url, IsDigit),
      numLetters := CountWhere(url, IsAlpha),
      numSpecial := CountWhere(url, IsSpecial),
      countDot := CountDot(url),
      countDash := CountChar(url, '-'),
      countSlash := CountChar(url, '/'),
      countAt := CountChar(url, '@'),
      countQmark := CountChar(url, '?'),
      countPercent := CountChar(url, '%'),
      countEqual := CountChar(url, '='),
      hasHttps := HasHttps(url),
      hasIp := HasIp(url))
  }

  /**
   * Calling `extract_features(url)` in a module whose global names are
   * `globals`.  Evaluating the dictionary display reaches the `has_ip`
   * entry, which looks up the global `re`; without it the call raises
   * NameError whatever the URL.  No other entry can raise on a string.
   */
  function ExtractFeaturesIn(globals: set<string>, url: string): (r: Result<FeatureVector, PyError>)
    ensures r.Success? <==> "re" in globals
    ensures r.Failure? ==> r.error == NameError("re")
    ensures r.Success? ==> r.value == Extract(url)
  {
    if "re" in globals then Success(Extract(url)) else Failure(NameError("re"))
  }
}

=== FILE: json.dfy ===
/**
 * The request bodies the endpoints receive, as the Python values
 * `request.get_json()` yields, and the three Python operations the handlers
 * apply to them: truth testing, `key in data` and `data[key]`.
 */
module Json {
  import opened Wrappers
  import opened PyStr

  /** A decoded JSON value: None, bool, number, str, list or dict. */
  datatype Json =
    | JNull
    | JBool(b: bool)
    | JNum(x: real)
    | JStr(s: string)
    | JList(items: seq<Json>)
    | JObj(fields: map<string, Json>)

  /** Python truth testing, `bool(value)`. */
  predicate Truthy(j: Json) {
    match j
    case JNull => false
    case JBool(b) => b
    case JNum(x) => x != 0.0
    case JStr(s) => s != []
    case JList(xs) => xs != []
    case JObj(m) => m != map[]
  }

  /**
   * `key in value`: a key test on a dict, an element test on a list, a
   * substring test on a str; anything else raises TypeError.
   */
  function HasKey(value: Json, key: string): Result<bool, PyError> {
    match value
    case JObj(m) => Success(key in m)
    case JList(xs) => Success(JStr(key) in xs)
    case JStr(s) => Success(Contains(s, key))
    case _ => Failure(TypeError)
  }

  /** `value[key]` with a str key: only a dict accepts it. */
  function Subscript(value: Json, key: string): Result<Json, PyError> {
    match value
    case JObj(m) => if key in m then Success(m[key]) else Failure(KeyError)
    case _ => Failure(TypeError)
  }

  /** What `if not data or key not in data: ...` followed by `data[key]` produces. */
  datatype FieldLookup = Found(value: Json) | Absent | Raised(error: PyError)

  /**
   * The field access every endpoint starts with.  Only a dict holding the key
   * yields a value; a falsy body or a missing key is reported as absent; a
   * list or str that passes the `in` test, or a number or `true` body, raises.
   */
  function LookupField(data: Json, key: string): (r: FieldLookup)
    ensures r.Found? <==> data.JObj? && key in data.fields
    ensures r.Found? ==> r.value == data.fields[key]
    ensures r.Absent? <==> !Truthy(data) || HasKey(data, key) == Success(false)
    ensures data.JObj? && key !in data.fields ==> r.Absent?
  {
    if !Truthy(data) then Absent
    else match HasKey(data, key)
      case Failure(e) => Raised(e)
      case Success(present) =>
        if !present then Absent
        else match Subscript(data, key)
          case Success(v) => Found(v)
          case Failure(e) => Raised(e)
  }

  /** A body that is a non-empty list containing "url" passes `in` but raises on `data["url"]`. */
  lemma ListBodyRaises()
    ensures LookupField(JList([JStr("url")]), "url") == Raised(TypeError)
  {
  }
}

=== FILE: pystr.dfy ===
/**
 * The Python `str` operations the URL feature extractor is built from:
 * character classes, counting, substring search, `split` (with and without
 * `maxsplit`), `join`, `lower` and `strip`.
 *
 * Python consults the Unicode database for `isdigit`, `isalpha`, `isalnum`
 * and `lower`; this model gives them their ASCII meaning.  `strip` uses the
 * full set of characters Python 3 calls whitespace.
 */
module PyStr {
  import opened Wrappers

  /** The Python exceptions the modelled code can raise. */
  datatype PyError =
    | TypeError
    | KeyError
    | NameError(name: string)
    | ModelRaised  // whatever exception the scoring model's own call raises

  /** `str.isdigit` on one character (ASCII decimal digits). */
  predicate IsDigit(c: char) {
    '0' <= c <= '9'
  }

  /** `str.isalpha` on one character (ASCII letters). */
  predicate IsAlpha(c: char) {
    'a' <= c <= 'z' || 'A' <= c <= 'Z'
  }

  /** `str.isalnum` on one character: a digit or a letter. */
  predicate IsAlnum(c: char) {
    IsDigit(c) || IsAlpha(c)
  }

  /** `not c.isalnum()`: everything `num_special` counts. */
  predicate IsSpecial(c: char) {
    !IsAlnum(c)
  }

  predicate IsAscii(s: string) {
    forall i :: 0 <= i < |s| ==> s[i] < '\U{80}'
  }

  /** `str.isspace` on one character: the characters `strip()` removes. */
  predicate IsSpace(c: char) {
    || '\t' <= c <= '\r'
    || '\U{1C}' <= c <= ' '
    || c == '\U{85}' || c == '\U{A0}' || c == '\U{1680}'
    || '\U{2000}' <= c <= '\U{200A}'
    || c == '\U{2028}' || c == '\U{2029}' || c == '\U{202F}'
    || c == '\U{205F}' || c == '\U{3000}'
  }

  /** `str.lower` on one character (ASCII case mapping). */
  function LowerChar(c: char): char {
    if 'A' <= c <= 'Z' then (c as int + 32) as char else c
  }

  /** `str.lower`: maps every character, keeps the length. */
  function Lower(s: string): string {
    seq(|s|, i requires 0 <= i < |s| => LowerChar(s[i]))
  }

  // ---------------------------------------------------------------------
  // Counting

  /** Number of characters of `s` satisfying `p`: `sum(p(c) for c in s)`. */
  function CountWhere(s: string, p: char -> bool): (n: nat)
    ensures n <= |s|
  {
    if s == [] then 0 else (if p(s[0]) then 1 else 0) + CountWhere(s[1..], p)
  }

  /** The test `x == c`, as a predicate value. */
  function EqualsChar(c: char): char -> bool {
    (x: char) => x == c
  }

  /** `s.count(c)` for a one-character argument. */
  function CountChar(s: string, c: char): nat {
    CountWhere(s, EqualsChar(c))
  }

  lemma {:induction false} CountWhereAppend(a: string, b: string, p: char -> bool)
    ensures CountWhere(a + b, p) == CountWhere(a, p) + CountWhere(b, p)
    decreases |a|
  {
    if a == [] {
      assert a + b == b;
    } else {
      assert (a + b)[1..] == a[1..] + b;
      CountWhereAppend(a[1..], b, p);
    }
  }

  /** A character satisfying `p` anywhere in `s` makes the count positive. */
  lemma {:induction false} CountWherePositive(s: string, p: char -> bool, i: nat)
    requires i < |s| && p(s[i])
    ensures CountWhere(s, p) >= 1
    decreases i
  {
    if i > 0 {
      CountWherePositive(s[1..], p, i - 1);
    }
  }

  /** Two distinct positions satisfying `p` make the count at least two. */
  lemma CountWhereTwo(s: string, p: char -> bool, i: nat, j: nat)
    requires i < j < |s| && p(s[i]) && p(s[j])
    ensures CountWhere(s, p) >= 2
  {
    assert s == s[..j] + s[j..];
    CountWhereAppend(s[..j], s[j..], p);
    CountWherePositive(s[..j], p, i);
    CountWherePositive(s[j..], p, 0);
  }

  /** The count is zero exactly when no character satisfies `p`. */
  lemma {:induction false} CountWhereZero(s: string, p: char -> bool)
    ensures CountWhere(s, p) == 0 <==> forall i :: 0 <= i < |s| ==> !p(s[i])
    decreases |s|
  {
    if s != [] {
      CountWhereZero(s[1..], p);
      assert forall i :: 1 <= i < |s| ==> s[i] == s[1..][i - 1];
      if CountWhere(s, p) != 0 && !p(s[0]) {
        var i :| 0 <= i < |s[1..]| && p(s[1..][i]);
        assert p(s[i + 1]);
      }
    }
  }

  /** The indices of `s` whose character satisfies `p`. */
  ghost function IndicesWhere(s: string, p: char -> bool): set<nat> {
    set i: nat | i < |s| && p(s[i])
  }

  /** The count is the number of indices whose character satisfies `p`. */
  lemma {:induction false} CountWhereIsIndexCount(s: string, p: char -> bool)
    ensures CountWhere(s, p) == |IndicesWhere(s, p)|
    decreases |s|
  {
    if s != [] {
      var a, c := s[..|s| - 1], s[|s| - 1];
      CountWhereIsIndexCount(a, p);
      assert s == a + [c];
      CountWhereAppend(a, [c], p);
      assert [c][1..] == [];
      assert forall i :: 0 <= i < |a| ==> s[i] == a[i];
      if p(c) {
        assert IndicesWhere(s, p) == IndicesWhere(a, p) + {|a|};
      } else {
        assert IndicesWhere(s, p) == IndicesWhere(a, p);
      }
    }
  }

  /** `s.count(c)` is the multiplicity of `c` in the multiset of `s`'s characters. */
  lemma {:induction false} CountCharIsMultiplicity(s: string, c: char)
    ensures CountChar(s, c) == multiset(s)[c]
    decreases |s|
  {
    if s != [] {
      assert s == [s[0]] + s[1..];
      assert multiset(s) == multiset([s[0]]) + multiset(s[1..]);
      CountCharIsMultiplicity(s[1..], c);
    }
  }

  /** Length of the longest prefix of `s` whose characters all satisfy `p`. */
  function PrefixRun(s: string, p: char -> bool): (n: nat)
    ensures n <= |s|
    ensures forall j :: 0 <= j < n ==> p(s[j])
    ensures n < |s| ==> !p(s[n])
  {
    if s != [] && p(s[0]) then 1 + PrefixRun(s[1..], p) else 0
  }

  /** Length of the longest suffix of `s` whose characters all satisfy `p`. */
  function SuffixRun(s: string, p: char -> bool): (n: nat)
    ensures n <= |s|
    ensures forall j :: |s| - n <= j < |s| ==> p(s[j])
    ensures n < |s| ==> !p(s[|s| - n - 1])
  {
    if s != [] && p(s[|s| - 1]) then 1 + SuffixRun(s[..|s| - 1], p) else 0
  }

  /** `r` is `s` without its first `a` and last `b` characters, all of them whitespace. */
  predicate TrimmedBy(s: string, a: nat, b: nat, r: string) {
    && a + b <= |s| && r == s[a..|s| - b]
    && (forall i :: 0 <= i < a ==> IsSpace(s[i]))
    && (forall i :: |s| - b <= i < |s| ==> IsSpace(s[i]))
  }

  /** `str.strip()`: drop leading and trailing whitespace. */
  function Strip(s: string): (r: string)
    ensures exists a, b :: TrimmedBy(s, a, b, r)
    ensures r == [] <==> forall i :: 0 <= i < |s| ==> IsSpace(s[i])
    ensures r != [] ==> !IsSpace(r[0]) && !IsSpace(r[|r| - 1])
  {
    var a := PrefixRun(s, IsSpace);
    if a == |s| then
      assert TrimmedBy(s, a, 0, []);
      []
    else
      var b := SuffixRun(s, IsSpace);
      assert b < |s| - a by {
        assert !IsSpace(s[a]);
      }
      assert TrimmedBy(s, a, b, s[a..|s| - b]);
      s[a..|s| - b]
  }

  // ---------------------------------------------------------------------
  // Substring search

  /** `t` occurs in `s` starting at index `i`. */
  predicate OccursAt(s: string, t: string, i: int) {
    0 <= i && i + |t| <= |s| && s[i..i + |t|] == t
  }

  lemma OccursAtShift(s: string, t: string, j: int)
    requires s != [] && j >= 0
    ensures OccursAt(s[1..], t, j) <==> OccursAt(s, t, j + 1)
  {
    if 0 <= j && j + |t| <= |s[1..]| {
      assert s[1..][j..j + |t|] == s[j + 1..j + 1 + |t|];
    }
  }

  /** `s.find(t)`: the first index at which `t` occurs, or `None` (Python's -1). */
  function Find(s: string, t: string): (r: Option<nat>)
    ensures r.Some? ==> OccursAt(s, t, r.value)
    ensures r.Some? ==> forall j :: 0 <= j < r.value ==> !OccursAt(s, t, j)
    ensures r.None? ==> forall j :: !OccursAt(s, t, j)
    decreases |s|
  {
    if |s| < |t| then None
    else if s[..|t|] == t then
      assert s[0..|t|] == s[..|t|];
      Some(0)
    else
      assert !OccursAt(s, t, 0) by {
        assert s[0..|t|] == s[..|t|];
      }
      match Find(s[1..], t)
      case None =>
        assert forall j :: !OccursAt(s, t, j) by {
          forall j | OccursAt(s, t, j) ensures false {
            OccursAtShift(s, t, j - 1);
          }
        }
        None
      case Some(k) =>
        OccursAtShift(s, t, k);
        assert forall j :: 0 <= j < k + 1 ==> !OccursAt(s, t, j) by {
          forall j | 0 < j < k + 1 ensures !OccursAt(s, t, j) {
            OccursAtShift(s, t, j - 1);
          }
        }
        Some(k + 1)
  }

  /** Python's `t in s` for strings. */
  function Contains(s: string, t: string): (b: bool)
    ensures b <==> exists i :: OccursAt(s, t, i)
  {
    Find(s, t).Some?
  }

  /** A one-character string occurs exactly where that character stands. */
  lemma OccursAtChar(s: string, c: char, i: int)
    ensures OccursAt(s, [c], i) <==> 0 <= i < |s| && s[i] == c
  {
    if 0 <= i < |s| {
      assert s[i..i + 1] == [s[i]];
    }
  }

  lemma ContainsChar(s: string, c: char)
    ensures Contains(s, [c]) <==> exists i :: 0 <= i < |s| && s[i] == c
  {
    if Contains(s, [c]) {
      var i :| OccursAt(s, [c], i);
      OccursAtChar(s, c, i);
    }
    if exists i :: 0 <= i < |s| && s[i] == c {
      var i :| 0 <= i < |s| && s[i] == c;
      OccursAtChar(s, c, i);
    }
  }

  /** An occurrence inside a prefix is an occurrence in the whole string. */
  lemma OccursAtPrefix(s: string, t: string, n: nat, j: int)
    requires n <= |s|
    ensures OccursAt(s[..n], t, j) ==> OccursAt(s, t, j)
  {
    if OccursAt(s[..n], t, j) {
      assert s[..n][j..j + |t|] == s[j..j + |t|];
    }
  }

  // ---------------------------------------------------------------------
  // split and join

  /**
   * The first match of `sep` in `piece + sep` is the appended one: the cut
   * after `piece` is at the leftmost match (see `CutAtFirstMatchMeaning`).
   */
  predicate CutAtFirstMatch(piece: string, sep: string) {
    Find(piece + sep, sep) == Some(|piece|)
  }

  /**
   * `parts` is what `s.split(sep)` returns: pieces that join back to `s`,
   * each cut at the leftmost match of `sep`, the last one holding none.
   */
  predicate IsSplit(s: string, sep: string, parts: seq<string>) {
    && |parts| >= 1 && Join(parts, sep) == s
    && CutsAtFirstMatches(parts, sep)
    && !Contains(parts[|parts| - 1], sep)
  }

  /** Every piece but the last is cut at the leftmost match of `sep`. */
  predicate CutsAtFirstMatches(parts: seq<string>, sep: string)
    decreases |parts|
  {
    |parts| <= 1 || (CutAtFirstMatch(parts[0], sep) && CutsAtFirstMatches(parts[1..], sep))
  }

  /** `CutsAtFirstMatches`, piece by piece. */
  lemma {:induction false} CutsAtFirstMatchesMeaning(parts: seq<string>, sep: string)
    ensures CutsAtFirstMatches(parts, sep) <==>
      forall k :: 0 <= k < |parts| - 1 ==> CutAtFirstMatch(parts[k], sep)
    decreases |parts|
  {
    if |parts| > 1 {
      CutsAtFirstMatchesMeaning(parts[1..], sep);
      assert forall k :: 1 <= k < |parts| ==> parts[k] == parts[1..][k - 1];
    }
  }

  /** `sep.join(parts)`. */
  function Join(parts: seq<string>, sep: string): string
    decreases |parts|
  {
    if |parts| == 0 then []
    else if |parts| == 1 then parts[0]
    else parts[0] + sep + Join(parts[1..], sep)
  }

  lemma JoinCons(a: string, rest: seq<string>, sep: string)
    requires |rest| >= 1
    ensures Join([a] + rest, sep) == a + sep + Join(rest, sep)
  {
    assert ([a] + rest)[1..] == rest;
  }

  /**
   * `s.split(sep, maxsplit)`: cut `s` at the leftmost occurrences of `sep`,
   * left to right and without overlap, at most `maxsplit` times; a negative
   * `maxsplit` (Python's default -1) means no limit.  Python raises
   * ValueError for an empty separator, hence the precondition.
   */
  function SplitN(s: string, sep: string, maxsplit: int): (r: seq<string>)
    requires |sep| > 0
    ensures SplitPieces(s, sep, maxsplit, r)
    decreases |s|
  {
    if maxsplit == 0 then [s]
    else match Find(s, sep)
      case None =>
        NoMatchNoCut(s, sep, maxsplit);
        [s]
      case Some(i) =>
        var m := if maxsplit < 0 then maxsplit else maxsplit - 1;
        var rest := SplitN(s[i + |sep|..], sep, m);
        ConsSplit(s, sep, i, rest, maxsplit, m);
        [s[..i]] + rest
  }

  /**
   * `r` is what `s.split(sep, maxsplit)` returns: at least one piece; the
   * pieces joined with `sep` give back `s`; every piece but the last is cut
   * at the leftmost match of `sep`, so holds none; at most `maxsplit` cuts
   * are made when `maxsplit` is not negative; and the last piece holds no
   * `sep` unless the limit was reached.
   */
  predicate SplitPieces(s: string, sep: string, maxsplit: int, r: seq<string>) {
    && |r| >= 1
    && Join(r, sep) == s
    && (forall k :: 0 <= k < |r| - 1 ==> !Contains(r[k], sep))
    && CutsAtFirstMatches(r, sep)
    && (maxsplit < 0 || |r| - 1 < maxsplit ==> !Contains(r[|r| - 1], sep))
    && (maxsplit >= 0 ==> |r| <= maxsplit + 1)
  }

  /** Without a match, `s` is its own only piece. */
  lemma NoMatchNoCut(s: string, sep: string, maxsplit: int)
    requires Find(s, sep).None?
    ensures SplitPieces(s, sep, maxsplit, [s])
  {
  }

  /** The piece before the first match of `sep`, in front of the pieces of what follows it. */
  lemma ConsSplit(s: string, sep: string, i: nat, rest: seq<string>, maxsplit: int, m: int)
    requires |sep| > 0 && Find(s, sep) == Some(i)
    requires maxsplit != 0 && m == if maxsplit < 0 then maxsplit else maxsplit - 1
    requires SplitPieces(s[i + |sep|..], sep, m, rest)
    ensures SplitPieces(s, sep, maxsplit, [s[..i]] + rest)
  {
    var r := [s[..i]] + rest;
    CutAtFind(s, sep, i, rest);
    ConsIndex(s[..i], rest);
    CutsStep(s, sep, i, rest);
    assert r[|r| - 1] == rest[|rest| - 1];
    assert maxsplit < 0 || |r| - 1 < maxsplit ==> m < 0 || |rest| - 1 < m;
  }

  /** Element `k + 1` of `[a] + rest` is element `k` of `rest`. */
  lemma ConsIndex<T>(a: T, rest: seq<T>)
    ensures var r := [a] + rest;
      && |r| == |rest| + 1 && r[0] == a
      && (forall k :: 1 <= k < |r| ==> r[k] == rest[k - 1])
  {
  }

  /** A piece cut at the first match in front of pieces that are all cut at leftmost matches. */
  lemma CutsStep(s: string, sep: string, i: nat, rest: seq<string>)
    requires |sep| > 0 && Find(s, sep) == Some(i) && CutsAtFirstMatches(rest, sep)
    ensures CutsAtFirstMatches([s[..i]] + rest, sep)
  {
    FirstMatchCut(s, sep, i);
    assert ([s[..i]] + rest)[1..] == rest;
  }

  /** `split` unfolded once at the first match. */
  lemma SplitNUnfold(s: string, sep: string, maxsplit: int, i: nat)
    requires |sep| > 0 && maxsplit != 0 && Find(s, sep) == Some(i)
    ensures SplitN(s, sep, maxsplit)
      == [s[..i]] + SplitN(s[i + |sep|..], sep, if maxsplit < 0 then maxsplit else maxsplit - 1)
  {
  }

  /** Cutting `s` at its first match of `sep` in front of a split of the remainder. */
  lemma CutAtFind(s: string, sep: string, i: nat, rest: seq<string>)
    requires |sep| > 0 && Find(s, sep) == Some(i) && |rest| >= 1 && Join(rest, sep) == s[i + |sep|..]
    ensures Join([s[..i]] + rest, sep) == s
    ensures !Contains(s[..i], sep) && CutAtFirstMatch(s[..i], sep)
  {
    SplitAround(s, sep, i);
    JoinCons(s[..i], rest, sep);
    NoMatchBeforeFind(s, sep, i);
    FirstMatchCut(s, sep, i);
  }

  lemma SplitAround(s: string, sep: string, i: nat)
    requires OccursAt(s, sep, i)
    ensures s == s[..i] + sep + s[i + |sep|..]
  {
    assert s[i..i + |sep|] == sep;
    assert s == s[..i] + s[i..i + |sep|] + s[i + |sep|..];
  }

  lemma NoMatchBeforeFind(s: string, sep: string, i: nat)
    requires |sep| > 0 && Find(s, sep) == Some(i)
    ensures !Contains(s[..i], sep)
  {
    forall j | OccursAt(s[..i], sep, j) ensures false {
      OccursAtPrefix(s, sep, i, j);
    }
  }

  /** The prefix before the first match of `sep` is cut at that match. */
  lemma FirstMatchCut(s: string, sep: string, i: nat)
    requires Find(s, sep) == Some(i)
    ensures CutAtFirstMatch(s[..i], sep)
  {
    var p := s[..i];
    PrefixThroughMatch(s, sep, i);
    NoEarlierMatch(s, sep, i);
    FindIsFirst(p + sep, sep, i);
  }

  lemma PrefixThroughMatch(s: string, sep: string, i: nat)
    requires OccursAt(s, sep, i)
    ensures s[..i] + sep == s[..i + |sep|]
    ensures OccursAt(s[..i] + sep, sep, i)
  {
    assert (s[..i] + sep)[i..i + |sep|] == sep;
  }

  lemma NoEarlierMatch(s: string, sep: string, i: nat)
    requires Find(s, sep) == Some(i)
    requires s[..i] + sep == s[..i + |sep|]
    ensures forall j :: 0 <= j < i ==> !OccursAt(s[..i] + sep, sep, j)
  {
    forall j | 0 <= j < i ensures !OccursAt(s[..i] + sep, sep, j) {
      OccursAtPrefix(s, sep, i + |sep|, j);
    }
  }

  /** An occurrence with none before it is what `find` returns. */
  lemma FindIsFirst(s: string, t: string, i: nat)
    requires OccursAt(s, t, i)
    requires forall j :: 0 <= j < i ==> !OccursAt(s, t, j)
    ensures Find(s, t) == Some(i)
  {
  }

  /**
   * A piece is cut at the leftmost match exactly when no match of `sep`
   * starts inside it, not even one that runs on into the separator after it.
   */
  lemma CutAtFirstMatchMeaning(piece: string, sep: string)
    ensures CutAtFirstMatch(piece, sep) <==>
      forall j :: 0 <= j < |piece| ==> !OccursAt(piece + sep, sep, j)
  {
    assert (piece + sep)[|piece|..|piece| + |sep|] == sep;
    if forall j :: 0 <= j < |piece| ==> !OccursAt(piece + sep, sep, j) {
      FindIsFirst(piece + sep, sep, |piece|);
    }
  }

  /** `s.split(sep)`. */
  function Split(s: string, sep: string): (r: seq<string>)
    requires |sep| > 0
    ensures IsSplit(s, sep, r)
    ensures forall k :: 0 <= k < |r| ==> !Contains(r[k], sep)
  {
    SplitN(s, sep, -1)
  }

  /** The pieces are determined: every split of `s` at leftmost matches is `s.split(sep)`. */
  lemma {:induction false} SplitUnique(s: string, sep: string, parts: seq<string>)
    requires |sep| > 0
    ensures IsSplit(s, sep, parts) <==> parts == Split(s, sep)
    decreases |parts|
  {
    if IsSplit(s, sep, parts) && |parts| == 1 {
      assert s == parts[0];
      assert Find(s, sep).None?;
    } else if IsSplit(s, sep, parts) {
      var p0, rest := parts[0], parts[1..];
      var tail := Join(rest, sep);
      SplitOfTail(s, sep, parts);
      SplitUnique(tail, sep, rest);
      SplitUnfold(s, sep, |p0|);
      assert parts == [p0] + rest;
    }
  }

  /** The pieces after the first of a split are a split of the text after the first cut. */
  lemma SplitOfTail(s: string, sep: string, parts: seq<string>)
    requires |sep| > 0 && IsSplit(s, sep, parts) && |parts| > 1
    ensures var p0, tail := parts[0], Join(parts[1..], sep);
      && Find(s, sep) == Some(|p0|) && s[..|p0|] == p0 && s[|p0| + |sep|..] == tail
      && IsSplit(tail, sep, parts[1..])
  {
    var p0, rest := parts[0], parts[1..];
    assert parts == [p0] + rest;
    JoinCons(p0, rest, sep);
    var tail := Join(rest, sep);
    FindAtCut(s, sep, p0, tail);
    assert s[..|p0|] == p0;
    assert s[|p0| + |sep|..] == tail;
    assert forall k :: 0 <= k < |rest| - 1 ==> rest[k] == parts[k + 1];
  }

  /** `split` with no limit, unfolded once at the first match. */
  lemma SplitUnfold(s: string, sep: string, i: nat)
    requires |sep| > 0 && Find(s, sep) == Some(i)
    ensures Split(s, sep) == [s[..i]] + Split(s[i + |sep|..], sep)
  {
  }

  /** In `p + sep + tail` with `p` cut at the leftmost match, the first match is right after `p`. */
  lemma FindAtCut(s: string, sep: string, p: string, tail: string)
    requires |sep| > 0 && s == p + sep + tail && CutAtFirstMatch(p, sep)
    ensures Find(s, sep) == Some(|p|)
  {
    CutAtFirstMatchMeaning(p, sep);
    assert s[..|p| + |sep|] == p + sep;
    assert s[|p|..|p| + |sep|] == sep;
    assert OccursAt(s, sep, |p|);
    forall j | 0 <= j < |p| ensures !OccursAt(s, sep, j) {
      if OccursAt(s, sep, j) {
        assert (p + sep)[j..j + |sep|] == s[j..j + |sep|];
        assert OccursAt(p + sep, sep, j);
      }
    }
    FindIsFirst(s, sep, |p|);
  }

  /**
   * `s.split(sep)[-1]`: the text after the last of the non-overlapping
   * occurrences of `sep` found left to right, or all of `s` when there is none.
   */
  function LastPiece(s: string, sep: string): (r: string)
    requires |sep| > 0
    ensures exists parts :: IsSplit(s, sep, parts) && r == parts[|parts| - 1]
    ensures !Contains(r, sep)
    ensures EndsAfterSeparator(s, sep, r, Find(s, sep).Some?)
  {
    var parts := Split(s, sep);
    SplitLastIsSuffix(s, sep);
    LastOfSplit(s, sep, parts);
    parts[|parts| - 1]
  }

  lemma LastOfSplit(s: string, sep: string, parts: seq<string>)
    requires IsSplit(s, sep, parts)
    ensures exists ps :: IsSplit(s, sep, ps) && parts[|parts| - 1] == ps[|ps| - 1]
  {
  }

  /**
   * `r` ends `s`; when `found` it is preceded in `s` by `sep`, otherwise it
   * is all of `s`.
   */
  predicate EndsAfterSeparator(s: string, sep: string, r: string, found: bool) {
    && |r| <= |s| && r == s[|s| - |r|..]
    && (!found ==> r == s)
    && (found ==> |r| + |sep| <= |s| && s[|s| - |r| - |sep|..|s| - |r|] == sep)
  }

  lemma {:induction false} SplitLastIsSuffix(s: string, sep: string)
    requires |sep| > 0
    ensures var parts := SplitN(s, sep, -1);
      EndsAfterSeparator(s, sep, parts[|parts| - 1], Find(s, sep).Some?)
    decreases |s|
  {
    match Find(s, sep)
    case None =>
      assert SplitN(s, sep, -1) == [s];
    case Some(i) =>
      var s' := s[i + |sep|..];
      SplitLastStep(s, sep, i);
      SplitLastIsSuffix(s', sep);
      var rest := SplitN(s', sep, -1);
      EndsAfterSeparatorStep(s, sep, i, rest[|rest| - 1], Find(s', sep).Some?);
  }

  lemma SplitLastStep(s: string, sep: string, i: nat)
    requires |sep| > 0 && Find(s, sep) == Some(i)
    ensures var parts := SplitN(s, sep, -1); var rest := SplitN(s[i + |sep|..], sep, -1);
      parts[|parts| - 1] == rest[|rest| - 1]
  {
    SplitNUnfold(s, sep, -1, i);
    LastOfCons(s[..i], SplitN(s[i + |sep|..], sep, -1));
  }

  lemma LastOfCons<T>(a: T, rest: seq<T>)
    requires |rest| >= 1
    ensures |[a] + rest| == |rest| + 1 && ([a] + rest)[|rest|] == rest[|rest| - 1]
  {
  }

  lemma EndsAfterSeparatorStep(s: string, sep: string, i: nat, r: string, found: bool)
    requires OccursAt(s, sep, i)
    requires EndsAfterSeparator(s[i + |sep|..], sep, r, found)
    ensures EndsAfterSeparator(s, sep, r, true)
  {
    SuffixShift(s, i + |sep|, |r|, |sep|, found);
    if !found {
      assert |s| - |r| - |sep| == i;
    }
  }

  lemma SuffixShift(s: string, start: nat, n: nat, m: nat, inner: bool)
    requires m <= start <= |s| && n <= |s| - start
    ensures s[start..][|s| - start - n..] == s[|s| - n..]
    ensures inner && n + m <= |s| - start ==> s[start..][|s| - start - n - m..|s| - start - n] == s[|s| - n - m..|s| - n]
  {
  }
}

=== FILE: simple_app.dfy ===
/**
 * The minimal service: one `/predict` endpoint with a stricter URL check
 * than the main service.  Its module never imports `re`, so as written the
 * extractor raises NameError on every URL that reaches it; `PredictAsWritten`
 * models that, `Predict` the evidently intended handler with `re` bound.
 */
module SimpleApp {
  import opened Wrappers
  import opened PyStr
  import opened Features
  import opened Decision
  import opened Json
  import App

  /** The global names the module binds: its four imports, without `re`. */
  const Globals: set<string> := {"Flask", "request", "jsonify", "pd", "joblib", "os"}

  /** Why `/predict` failed; `PredictionFailed` is the catch-all handler. */
  datatype ErrorKind =
    | ModelNotLoaded                    // "Model not loaded"
    | UrlRequired                       // "URL is required"
    | InvalidUrlFormat                  // "Invalid URL format"
    | PredictionFailed(cause: PyError)  // "Prediction failed: <exception>"

  /** `isinstance(url, str) and len(url.strip()) > 0`. */
  predicate AcceptsUrl(u: Json) {
    u.JStr? && Strip(u.s) != []
  }

  /** `/predict` with the extractor evaluated in `globals`. */
  function PredictIn(globals: set<string>, model: Option<Model>, data: Json): (r: Result<Verdict, ErrorKind>)
    ensures model.None? ==> r == Failure(ModelNotLoaded)
    ensures (model.Some? && LookupField(data, "url").Absent?) ==> r == Failure(UrlRequired)
    ensures (model.Some? && LookupField(data, "url").Raised?) ==>
      r == Failure(PredictionFailed(LookupField(data, "url").error))
    ensures (model.Some? && data.JObj? && "url" in data.fields && !AcceptsUrl(data.fields["url"])) ==>
      r == Failure(InvalidUrlFormat)
    ensures (model.Some? && data.JObj? && "url" in data.fields && AcceptsUrl(data.fields["url"])
      && "re" !in globals) ==> r == Failure(PredictionFailed(NameError("re")))
    ensures (model.Some? && data.JObj? && "url" in data.fields && AcceptsUrl(data.fields["url"])
      && "re" in globals && model.value.predict(Extract(data.fields["url"].s)).None?) ==>
      r == Failure(PredictionFailed(ModelRaised))
    ensures r.Success? <==>
      && "re" in globals && model.Some? && data.JObj? && "url" in data.fields
      && AcceptsUrl(data.fields["url"])
      && model.value.predict(Extract(data.fields["url"].s)).Some?
  {
    if model.None? then Failure(ModelNotLoaded)
    else match LookupField(data, "url")
      case Absent => Failure(UrlRequired)
      case Raised(e) => Failure(PredictionFailed(e))
      case Found(u) =>
        if !AcceptsUrl(u) then Failure(InvalidUrlFormat)
        else match ExtractFeaturesIn(globals, u.s)
          case Failure(e) => Failure(PredictionFailed(e))
          case Success(features) =>
            match model.value.predict(features)
            case None => Failure(PredictionFailed(ModelRaised))
            case Some(p) => Success(Decide(u.s, p))
  }

  /** `/predict` as written: the module's globals lack `re`. */
  function PredictAsWritten(model: Option<Model>, data: Json): (r: Result<Verdict, ErrorKind>)
    ensures r.Failure?
    ensures (model.Some? && data.JObj? && "url" in data.fields && AcceptsUrl(data.fields["url"])) ==>
      r == Failure(PredictionFailed(NameError("re")))
  {
    ReNotBound();
    PredictIn(Globals, model, data)
  }

  lemma ReNotBound()
    ensures "re" !in Globals
  {
  }

  /** A request the handler must score is answered "Prediction failed: name 're' is not defined". */
  lemma AsWrittenRejectsValidUrl(m: Model)
    ensures m.predict(Extract("https://www.google.com")).Some? ==>
      App.PredictSingle(Some(m), JObj(map["url" := JStr("https://www.google.com")])).Success?
    ensures PredictAsWritten(Some(m), JObj(map["url" := JStr("https://www.google.com")]))
      == Failure(PredictionFailed(NameError("re")))
  {
    var data := JObj(map["url" := JStr("https://www.google.com")]);
    GoogleUrlAccepted();
    assert data.fields["url"] == JStr("https://www.google.com");
  }

  lemma GoogleUrlAccepted()
    ensures AcceptsUrl(JStr("https://www.google.com"))
  {
    assert !IsSpace("https://www.google.com"[0]);
  }

  /** `/predict` with `import re` added. */
  function Predict(model: Option<Model>, data: Json): (r: Result<Verdict, ErrorKind>)
    ensures model.None? ==> r == Failure(ModelNotLoaded)
    ensures r.Success? <==>
      && model.Some? && data.JObj? && "url" in data.fields
      && AcceptsUrl(data.fields["url"])
      && model.value.predict(Extract(data.fields["url"].s)).Some?
    ensures r.Success? ==> (r.value.url == data.fields["url"].s
      && r.value.probability == model.value.predict(Extract(r.value.url)).value
      && (r.value.prediction == Phishing <==> r.value.probability > 0.5))
  {
    PredictIn(Globals + {"re"}, model, data)
  }

  /**
   * Where the corrected handler answers, the main service gives the same
   * verdict: the URL check here is the stricter of the two.
   */
  lemma AgreesWithMainService(model: Option<Model>, data: Json)
    ensures Predict(model, data).Success? ==>
      App.PredictSingle(model, data) == Success(Predict(model, data).value)
    ensures (model.Some? && data.JObj? && "url" in data.fields && AcceptsUrl(data.fields["url"])) ==>
      App.AcceptsUrl(data.fields["url"])
  {
    if model.Some? && data.JObj? && "url" in data.fields && AcceptsUrl(data.fields["url"]) {
      StrictAcceptsImpliesLenient(data.fields["url"]);
      if Predict(model, data).Success? {
        var url := data.fields["url"].s;
        var p := model.value.predict(Extract(url)).value;
        assert Predict(model, data) == Success(Decide(url, p));
        assert App.PredictSingle(model, data) == Success(Decide(url, p));
      }
    }
  }

  /** A URL that is not blank after strip is a non-empty string. */
  lemma StrictAcceptsImpliesLenient(u: Json)
    requires AcceptsUrl(u)
    ensures App.AcceptsUrl(u)
  {
    assert u.s != [];
  }

  /** A URL of blanks: the main service scores it, this one rejects it as malformed. */
  lemma BlankUrlRejected(m: Model)
    requires m.predict(Extract("   ")).Some?
    ensures App.PredictSingle(Some(m), JObj(map["url" := JStr("   ")])).Success?
    ensures Predict(Some(m), JObj(map["url" := JStr("   ")])) == Failure(InvalidUrlFormat)
  {
    App.WhitespaceUrlAccepted(m);
    BlanksNotAccepted();
    var data := JObj(map["url" := JStr("   ")]);
    assert data.fields["url"] == JStr("   ");
  }

  lemma BlanksNotAccepted()
    ensures !AcceptsUrl(JStr("   "))
  {
    var blanks := "   ";
    assert forall i :: 0 <= i < |blanks| ==> IsSpace(blanks[i]);
  }
}

=== FILE: training.dfy ===
/**
 * The training side, reduced to what the serving side depends on: the
 * feature names saved with a model, the smoke-test decisions the two
 * training scripts print, and the synthetic dataset of the lightweight
 * model.  The training algorithm itself is not modelled.
 */
module Training {
  import opened Wrappers
  import opened PyStr
  import opened Features
  import opened Decision
  import App

  /** The global names of the two training scripts; both import `re`. */
  const SaveModelGlobals: set<string> := {"pd", "lgb", "joblib", "re", "train_test_split"}
  const LightweightGlobals: set<string> := {"pd", "lgb", "joblib", "re", "train_test_split"}

  /**
   * The four copies of the extractor compute the same row for every URL in
   * the main service and in both training scripts, so a model is served the
   * columns it was trained on.
   */
  lemma TrainingAndServingAgree(url: string)
    ensures ExtractFeaturesIn(SaveModelGlobals, url) == ExtractFeaturesIn(App.Globals, url)
    ensures ExtractFeaturesIn(LightweightGlobals, url) == ExtractFeaturesIn(App.Globals, url)
    ensures ExtractFeaturesIn(App.Globals, url).Success?
  {
    assert "re" in SaveModelGlobals && "re" in LightweightGlobals && "re" in App.Globals;
  }

  /**
   * `X_train.columns.tolist()`: the columns of a frame built from the
   * extractor's dictionaries are their keys in insertion order.
   */
  function SavedFeatureNames(): (names: seq<string>)
    ensures names == App.DefaultFeatureNames
    ensures |names| == 15
    ensures forall v :: |ToSeq(v)| == |names|
  {
    KeyOrder
  }

  /**
   * The scripts' closing check on "https://www.plugintoai.com" and
   * "https://www.google.com": extract, score, and label with the service's
   * threshold.  Nothing catches an exception here, so a raising
   * model is `None`.
   */
  function SmokeTest(m: Model, testUrl: string): (r: Option<Label>)
    ensures r.Some? <==> m.predict(Extract(testUrl)).Some?
    ensures r == Some(Phishing) <==> m.predict(Extract(testUrl)).Some? && m.predict(Extract(testUrl)).value > 0.5
  {
    match m.predict(Extract(testUrl))
    case None => None
    case Some(p) => Some(if p > 0.5 then Phishing else Safe)
  }

  /** The training scripts' smoke test agrees with the label the service would report. */
  lemma SmokeTestMatchesService(m: Model, testUrl: string)
    requires m.predict(Extract(testUrl)).Some?
    ensures SmokeTest(m, testUrl) == Some(PredictUrl(m, testUrl).value.prediction)
  {
  }

  // ---------------------------------------------------------------------
  // The synthetic dataset of the lightweight model

  const SuspiciousWords: seq<string> := ["suspicious", "phishing", "fake", "malicious"]

  /** `any(word in s for word in words)`. */
  function AnyOccurs(s: string, words: seq<string>): (b: bool)
    ensures b <==> exists k :: 0 <= k < |words| && Contains(s, words[k])
  {
    if words == [] then false
    else Contains(s, words[0]) || AnyOccurs(s, words[1..])
  }

  /** The heuristic label: 1.0 when a suspicious word occurs in the lower-cased URL. */
  function KeywordLabel(url: string): (y: real)
    ensures y == 0.0 || y == 1.0
  {
    if AnyOccurs(Lower(url), SuspiciousWords) then 1.0 else 0.0
  }

  /** A URL is labelled phishing exactly when one of the four words occurs in it, ignoring case. */
  lemma KeywordLabelIff(url: string)
    ensures KeywordLabel(url) == 1.0 <==>
      exists k :: 0 <= k < |SuspiciousWords| && Contains(Lower(url), SuspiciousWords[k])
    ensures KeywordLabel(url) == 0.0 <==>
      forall k :: 0 <= k < |SuspiciousWords| ==> !Contains(Lower(url), SuspiciousWords[k])
  {
  }

  const SampleUrls: seq<string> := [
    "https://www.google.com",
    "https://www.github.com",
    "https://www.stackoverflow.com",
    "https://suspicious-site.com",
    "https://phishing-example.net",
    "https://fake-bank.com",
    "https://www.microsoft.com",
    "https://www.apple.com",
    "https://malicious-link.org",
    "https://www.amazon.com"
  ]

  const Rounds: nat := 100

  /** The variation of the base URL at position `i`: a path on even positions, a query on odd ones. */
  function Vary(url: string, i: nat): (v: string)
    ensures |v| > |url| && v[..|url|] == url
    ensures i % 2 == 0 ==> v[|url|..] == "/path"
    ensures i % 2 == 1 ==> v[|url|..] == "?param=value"
  {
    if i % 2 == 0 then url + "/path" else url + "?param=value"
  }

  /** An even position gains a path, an odd one a query string. */
  lemma VaryExamples()
    ensures Vary(SampleUrls[0], 0) == "https://www.google.com/path"
    ensures Vary(SampleUrls[1], 1) == "https://www.github.com?param=value"
  {
    var google, github := SampleUrls[0], SampleUrls[1];
    assert google == "https://www.google.com" && github == "https://www.github.com";
    assert Vary(google, 0) == google + "/path";
    assert Vary(github, 1) == github + "?param=value";
  }

  /** `k % n`, by repeated subtraction: which base URL position `k` of the dataset varies. */
  function BaseIndex(k: nat, n: nat): (b: nat)
    requires n > 0
    ensures b < n
    decreases k
  {
    if k < n then k else BaseIndex(k - n, n)
  }

  /** Position `n * q + i` of the dataset varies base `i`. */
  lemma {:induction false} BaseIndexOf(n: nat, q: nat, i: nat)
    requires i < n
    ensures BaseIndex(n * q + i, n) == i
    decreases q
  {
    if q > 0 {
      assert n * q + i - n == n * (q - 1) + i;
      BaseIndexOf(n, q - 1, i);
    }
  }

  /** `BaseIndex` is the remainder of `k` divided by `n`. */
  lemma BaseIndexIsMod(k: nat, n: nat)
    requires n > 0
    ensures BaseIndex(k, n) == k % n
  {
    var q, i := k / n, k % n;
    assert k == n * q + i;
    BaseIndexOf(n, q, i);
  }

  /** The first pass of variations, one per base URL, in base order. */
  function Variations(bases: seq<string>): (v: seq<string>)
    ensures |v| == |bases|
    ensures forall i :: 0 <= i < |bases| ==> v[i] == Vary(bases[i], i)
  {
    seq(|bases|, i requires 0 <= i < |bases| => Vary(bases[i], i))
  }

  /** The keyword labels of the base URLs, in base order. */
  function BaseLabels(bases: seq<string>): (ls: seq<real>)
    ensures |ls| == |bases|
    ensures forall i :: 0 <= i < |bases| ==> ls[i] == KeywordLabel(bases[i])
  {
    seq(|bases|, i requires 0 <= i < |bases| => KeywordLabel(bases[i]))
  }

  /** `rounds` copies of `s`, one after another. */
  function Repeat<T>(s: seq<T>, rounds: nat): (r: seq<T>)
    ensures |r| == |s| * rounds
  {
    if rounds == 0 then [] else Repeat(s, rounds - 1) + s
  }

  /** One more pass extends the repetition, and leaves the head in front. */
  lemma RepeatStep<T>(head: seq<T>, s: seq<T>, r: nat)
    ensures (head + Repeat(s, r)) + s == head + Repeat(s, r + 1)
    ensures (head + Repeat(s, r))[..|head|] == head
  {
  }

  /** Element `k` of a repetition is element `k % |s|` of `s`. */
  lemma {:induction false} RepeatIndex<T>(s: seq<T>, rounds: nat, k: nat)
    requires k < |Repeat(s, rounds)|
    ensures |s| > 0 && Repeat(s, rounds)[k] == s[BaseIndex(k, |s|)]
    decreases rounds
  {
    var prev := Repeat(s, rounds - 1);
    if k < |prev| {
      RepeatIndex(s, rounds - 1, k);
    } else {
      BaseIndexOf(|s|, rounds - 1, k - |prev|);
    }
  }

  /** One pass of the inner loop: the variation of every base, with the base's label. */
  method AppendPass(bases: seq<string>, urls: seq<string>, labels: seq<real>)
    returns (urls': seq<string>, labels': seq<real>)
    requires |bases| <= |labels|
    ensures urls' == urls + Variations(bases)
    ensures labels' == labels + labels[..|bases|]
  {
    var varied := Variations(bases);
    urls', labels' := urls, labels;
    for i := 0 to |bases|
      invariant urls' == urls + varied[..i]
      invariant labels' == labels + labels[..i]
    {
      urls' := urls' + [Vary(bases[i], i)];
      labels' := labels' + [labels'[i]];
    }
  }

  /** The first loop: each base URL with its keyword label. */
  method LabelBases(bases: seq<string>) returns (urls: seq<string>, labels: seq<real>)
    ensures urls == bases
    ensures labels == BaseLabels(bases)
  {
    urls, labels := [], [];
    for i := 0 to |bases|
      invariant urls == bases[..i]
      invariant |labels| == i
      invariant forall k :: 0 <= k < i ==> labels[k] == KeywordLabel(bases[k])
    {
      urls := urls + [bases[i]];
      labels := labels + [KeywordLabel(bases[i])];
    }
  }

  /**
   * The dataset loop: the bases with their keyword labels, then `rounds`
   * passes over the bases, each appending the variation of base `i` with
   * base `i`'s label.
   */
  method BuildDataset(bases: seq<string>, rounds: nat) returns (urls: seq<string>, labels: seq<real>)
    ensures urls == bases + Repeat(Variations(bases), rounds)
    ensures labels == BaseLabels(bases) + Repeat(BaseLabels(bases), rounds)
  {
    var varied, baseLabels := Variations(bases), BaseLabels(bases);
    urls, labels := LabelBases(bases);
    for r := 0 to rounds
      invariant urls == bases + Repeat(varied, r)
      invariant labels == baseLabels + Repeat(baseLabels, r)
    {
      urls, labels := AppendPass(bases, urls, labels);
      RepeatStep(bases, varied, r);
      RepeatStep(baseLabels, baseLabels, r);
    }
  }

  /** The dataset holds `|bases| * (rounds + 1)` samples, each with a label. */
  lemma DatasetLength(bases: seq<string>, rounds: nat, urls: seq<string>, labels: seq<real>)
    requires urls == bases + Repeat(Variations(bases), rounds)
    requires labels == BaseLabels(bases) + Repeat(BaseLabels(bases), rounds)
    ensures |urls| == |labels| == |bases| * (rounds + 1)
  {
    assert |bases| * (rounds + 1) == |bases| + |bases| * rounds;
  }

  /**
   * Every sample after the bases is the variation of base `k % |bases|`
   * and carries that base's label.
   */
  lemma DatasetSample(bases: seq<string>, rounds: nat, urls: seq<string>, labels: seq<real>, k: nat)
    requires urls == bases + Repeat(Variations(bases), rounds)
    requires labels == BaseLabels(bases) + Repeat(BaseLabels(bases), rounds)
    requires |bases| <= k < |urls|
    ensures var b := BaseIndex(k, |bases|);
      urls[k] == Vary(bases[b], b) && labels[k] == KeywordLabel(bases[b]) == labels[b]
  {
    DatasetUrlAt(bases, rounds, urls, k);
    DatasetLabelAt(bases, rounds, labels, k);
  }

  lemma DatasetUrlAt(bases: seq<string>, rounds: nat, urls: seq<string>, k: nat)
    requires urls == bases + Repeat(Variations(bases), rounds)
    requires |bases| <= k < |urls|
    ensures var b := BaseIndex(k, |bases|); urls[k] == Vary(bases[b], b)
  {
    var n := |bases|;
    var varied := Variations(bases);
    RepeatIndex(varied, rounds, k - n);
    assert BaseIndex(k, n) == BaseIndex(k - n, n);
    assert urls[k] == Repeat(varied, rounds)[k - n];
  }

  lemma DatasetLabelAt(bases: seq<string>, rounds: nat, labels: seq<real>, k: nat)
    requires labels == BaseLabels(bases) + Repeat(BaseLabels(bases), rounds)
    requires |bases| <= k < |labels|
    ensures var b := BaseIndex(k, |bases|); labels[k] == labels[b] == KeywordLabel(bases[b])
  {
    var n := |bases|;
    RepeatIndex(BaseLabels(bases), rounds, k - n);
    assert BaseIndex(k, n) == BaseIndex(k - n, n);
  }

  /** `create_lightweight_model`'s dataset: 10 bases and 100 passes, 1010 samples in all. */
  method LightweightDataset() returns (urls: seq<string>, labels: seq<real>)
    ensures |urls| == |labels| == 1010
    ensures urls[..10] == SampleUrls
    ensures urls[10] == "https://www.google.com/path" && urls[11] == "https://www.github.com?param=value"
    ensures forall k :: 10 <= k < 1010 ==> labels[k] == labels[BaseIndex(k, 10)]
  {
    urls, labels := BuildDataset(SampleUrls, Rounds);
    DatasetLength(SampleUrls, Rounds, urls, labels);
    LabelsRepeat(SampleUrls, Rounds, labels);
    DatasetUrlAt(SampleUrls, Rounds, urls, 10);
    DatasetUrlAt(SampleUrls, Rounds, urls, 11);
    assert BaseIndex(10, 10) == 0 && BaseIndex(11, 10) == 1;
    VaryExamples();
  }

  /** The labels after the bases repeat the bases' labels. */
  lemma LabelsRepeat(bases: seq<string>, rounds: nat, labels: seq<real>)
    requires labels == BaseLabels(bases) + Repeat(BaseLabels(bases), rounds)
    ensures forall k :: |bases| <= k < |labels| ==> labels[k] == labels[BaseIndex(k, |bases|)]
  {
    forall k | |bases| <= k < |labels| ensures labels[k] == labels[BaseIndex(k, |bases|)] {
      RepeatIndex(BaseLabels(bases), rounds, k - |bases|);
    }
  }

  /** Sample labels: a base holding a suspicious word is phishing. */
  lemma SuspiciousSampleLabelled()
    ensures KeywordLabel("https://suspicious-site.com") == 1.0
  {
    var low := Lower("https://suspicious-site.com");
    assert low == "https://suspicious-site.com";
    assert OccursAt(low, SuspiciousWords[0], 8) by {
      assert low[8..18] == "suspicious";
    }
  }
}

=== FILE: wrappers.dfy ===
/** Failure-carrying datatypes shared by the rest of the model. */
module Wrappers {

  /** A value that may be absent: Python's `None` versus a present value. */
  datatype Option<+T> = None | Some(value: T)

  /** Either a computed value or the error that replaced it. */
  datatype Result<+R, +E> = Success(value: R) | Failure(error: E)
}
